=== FILE: README.md ===
# reel-maker, modelled in Dafny

reel-maker renders short vertical videos (1080x1920) from a timeline of
scenes and captions, and it builds a narration track that is aligned to the
same timeline. This project models the core of that system as pure Dafny
functions and methods, and proves properties about them.

- **Frame compositor** (`core/scene_base.py`, module `Compositor`). At time
  `t`, `render_frame` does the following:
  - finds the active scene;
  - clamps the scene's progress;
  - calls the scene's registered painter, if there is one;
  - draws the segmented progress bar;
  - draws the caption panel.

  A frame is modelled as the list of drawing commands that makes it.
- **Drawing helpers** (`core/drawing.py`, module `Drawing`):
  - the clamped `rgba` blend;
  - the floored corner radius of `draw_rounded_rect`;
  - the three text anchors.

  Text extents come from Pillow's `getbbox`, which is taken as an opaque
  `Metrics` function.
- **Timeline** (module `Timeline`):
  - half-open scene and caption windows;
  - the first-match lookups. `next(..., scenes[-1])` evaluates its default
    before searching, so an empty scene list raises `IndexError`.
  - the progress clamp;
  - what a tiling of `[0, duration)` guarantees.
- **Encoder driver** (`core/renderer.py`, module `Encoder`):
  - the frame loop of `render_to_mp4`. Frame `k` is rendered at `k / fps`, a
    progress notice is emitted every `fps` frames, and the outcome is the
    encoder's exit status.
  - `validate_output`, over the probe's exit status and its parsed report.
- **Narration** (`core/tts.py`, modules `Backends`, `Tempo`, `Narration`):
  - backend auto-detection, as a priority chain over an `Env` that describes
    what is installed;
  - the request each backend hands to its engine;
  - the `atempo` stage chain of `_time_stretch`;
  - per-scene speech targets;
  - the `adelay`/`amix` graph of `generate_narration`.

  Each engine's output length and each external run's exit status are
  inputs.
- **Video #5** (`examples/video5_context_erosion.py`, module `Video5`). The
  script carries its own copies of the helpers, and they differ from the
  core's in four ways:
  - the blend is unclamped;
  - the corner radius has no floor at 0;
  - the label font is the regular weight;
  - painter lookup is strict (`dict[...]`).

  The `Compositor.Style` value captures these differences. The model proves
  that the script's six scenes and 44 captions tile its 57 seconds, and that
  every one of its 1710 frames renders.

Python exceptions are modelled as values of `Basics.Fault` inside a `Result`:
- `IndexError`, `KeyError` and `ZeroDivisionError`;
- the `ValueError` for an unknown backend or a missing API key;
- the `RuntimeError` when no backend is available or the mix fails;
- `ImportError` for a missing package and `OSError` for a missing library.

`int()` on a float truncates toward zero (`Basics.Trunc`). Times are exact
reals.

Behaviours of the code worth stating:
- The code never validates a timeline. Overlapping or gapped scenes are not
  rejected. "The scenes tile `[0, duration)`" (`Timeline.Tiles`) is
  therefore a hypothesis of the lemmas that need it, not a check the model
  performs.
- The short-scene speech target is `scene_dur - 0.2` in total, and the clip
  still starts 0.3 s into the scene. In a scene shorter than 1.6 s the speech
  therefore ends 0.1 s after the scene does (`Narration.SpeechEnd`,
  `Narration.ShortSceneOverruns`). On a chained timeline a clip that was
  stretched still ends before the next scene's clip starts
  (`Narration.StretchedClipNeverOverlaps`). A clip the stretch run failed on
  is copied unchanged and can run into the next scene
  (`Narration.CopiedClipOverlaps`).
- Temporary clips are named by scene id (`stretched_{id}.wav`). Two scenes
  with the same id therefore share one file, and the mix plays the later
  scene's clip at both offsets (`Narration.HeardClips`,
  `Narration.SharedIdLosesClip`).
- `render_to_mp4` returns `False` for an encoder that reads every frame and
  then exits non-zero. An encoder that dies earlier makes the next pipe
  write or the pipe close raise instead, and a missing `ffmpeg` raises at
  launch (see "Left out").
- A frame that raises stops the frame loop.
- `validate_output` raises `KeyError` or `IndexError` when the probe's report
  has no streams; it does not return a result in those cases.
- `_time_stretch` also copies the clip unchanged when either length is not
  positive.
- The mix applies `volume=n` after `amix`.
- Loudness normalisation runs per clip inside `_time_stretch`, not on the
  final mix. The model does not carry it (see "Left out").

## Model

| member | source | states |
|---|---|---|
| Basics.Trunc | reel-maker/core/scene_base.py:20 | Python's `int()` on a float: for `x >= 0` the result is the largest integer not above `x`; for `x < 0` it is the smallest integer not below `x` (truncation toward zero) |
| Basics.ClampUnit | reel-maker/core/scene_base.py:78 | `max(0, min(1, x))` lies in [0, 1]; it is `x` itself inside [0, 1], 0 below and 1 above |
| Basics.NatToString | reel-maker/core/renderer.py:108 | the decimal rendering of a natural number is a non-empty run of digits with no leading zero |
| Basics.IntToString | reel-maker/core/renderer.py:108 | `str(n)` starts with a minus sign exactly when `n` is negative, and the rest is digits |
| Basics.ParseNatToString | reel-maker/core/renderer.py:108 | reading back the decimal digits of a natural number gives that number |
| Basics.IntToStringRoundTrip | reel-maker/core/renderer.py:108 | `str(n)` of any integer, sign included, parses back to `n` |
| Basics.IntToStringInjective | reel-maker/core/renderer.py:108-115 | two integers have the same decimal rendering exactly when they are equal, so the frame-count string comparison is a count comparison |
| Basics.NatToStringInjective | reel-maker/core/tts.py:385 | distinct natural numbers render to distinct digit strings |
| Text.LeadingSpaces | reel-maker/core/tts.py:239 | the count is a prefix of `isspace` characters followed by a non-space character or by the end of the string |
| Text.TrailingSpaces | reel-maker/core/tts.py:239 | the count is a suffix of `isspace` characters preceded by a non-space character or by the start of the string |
| Text.Strip | reel-maker/core/tts.py:239 | `strip()` never lengthens the text, and leaves nothing exactly when the text is all whitespace |
| Text.StripSound | reel-maker/core/tts.py:239 | `strip()` returns a contiguous piece of the input with only whitespace around it, and its first and last characters are not whitespace |
| Text.RemoveAll | reel-maker/core/tts.py:239 | `replace(tag, "")` never lengthens the text |
| Text.RemoveAllSkips | reel-maker/core/tts.py:239 | a prefix in which no occurrence of the tag starts passes through `replace` unchanged |
| Text.RemoveAllLeading | reel-maker/core/tts.py:239 | a leading occurrence of the tag is removed and the single pass resumes right after it |
| Text.RemoveAllKeepsFront | reel-maker/core/tts.py:239 | a front part in which no occurrence starts is kept verbatim in front of the rest's result |
| Text.RemoveAllTagFree | reel-maker/core/tts.py:239 | removing a tag from text that does not contain it returns the text unchanged |
| Text.PaddedTagFree | reel-maker/core/tts.py:96 | in `" " + text + " " + rest`, with tag-free `text` and a tag without spaces, no occurrence of the tag starts before `rest` |
| Text.StripPadded | reel-maker/core/tts.py:239 | stripping ignores the one space of padding that the Dia script adds on each side |
| Text.LeadingPadded | reel-maker/core/tts.py:239 | padding adds exactly one leading space, or two if the text is all whitespace |
| Text.TrailingPadded | reel-maker/core/tts.py:239 | padding adds exactly one trailing space to a text that is not all whitespace |
| Drawing.BlendChannelBetween | reel-maker/core/drawing.py:25 | for alpha in [0, 1], a blended channel lies between the colour's channel and the background's |
| Drawing.Rgba | reel-maker/core/drawing.py:22-25 | `rgba`: alpha >= 1 gives the colour, alpha <= 0 gives `BG`, every channel lies between the colour's and `BG`'s, and an in-gamut colour stays in gamut |
| Drawing.RgbaUnclamped | reel-maker/examples/video5_context_erosion.py:31-33 | the script's `rgba` without the clamp: alpha 0 gives the background, alpha 1 the colour itself |
| Drawing.RgbaVariantsAgree | reel-maker/examples/video5_context_erosion.py:31-33 | the script's unclamped `rgba` equals the core's for every alpha in [0, 1] |
| Drawing.RgbaUnclampedOvershoots | reel-maker/examples/video5_context_erosion.py:31-33 | outside [0, 1] the unclamped blend leaves the 0..255 range (WHITE at alpha 2 gives red 467), while the core's clamped blend gives WHITE |
| Drawing.CornerRadius | reel-maker/core/drawing.py:45-46 | the radius is non-negative, at most half of each non-negative side, at most the requested radius, and equal to it when it fits |
| Drawing.CornerRadiusUnfloored | reel-maker/examples/video5_context_erosion.py:81 | the script's radius is the least of the requested radius and the two half-sides |
| Drawing.CornerRadiusVariants | reel-maker/examples/video5_context_erosion.py:79-85 | the two radius rules agree whenever the unfloored one is non-negative, the core's gives 0 otherwise, and a box with negative width makes the unfloored one negative |
| Drawing.DrawRoundedRect | reel-maker/core/drawing.py:42-50 | `draw_rounded_rect` draws nothing exactly when there is neither fill nor outline, and otherwise one shape on the given box with the rule's radius, the given width, fill and outline |
| Drawing.CenteredText | reel-maker/core/drawing.py:53-58 | the text's box is centred on `(cx, cy)`, any odd pixel falling right or below |
| Drawing.LeftText | reel-maker/core/drawing.py:61-65 | the text starts at `x` and is vertically centred on `cy` |
| Drawing.RightText | reel-maker/core/drawing.py:68-73 | the text's box ends exactly at `x` and is vertically centred on `cy` |
| Timeline.FirstCovering | reel-maker/core/scene_base.py:34 | `next` over the generator finds the first window holding `t`, or none exactly when no window holds it |
| Timeline.SceneAt | reel-maker/core/scene_base.py:77 | the scene lookup raises `IndexError` exactly on an empty list; otherwise it returns the first scene whose window holds `t`, or the last scene when none does |
| Timeline.SceneAtMember | reel-maker/core/scene_base.py:77 | on a non-empty list the lookup returns one of the scenes |
| Timeline.CaptionAt | reel-maker/core/scene_base.py:44 | the caption lookup is `None` exactly when no caption's window holds `t`; otherwise it is the first caption whose window does |
| Timeline.Progress | reel-maker/core/scene_base.py:78 | the progress raises `ZeroDivisionError` exactly for a zero-length scene; otherwise it is in [0, 1], is linear inside the window, is 0 at or before the start and is 1 at or after the end |
| Timeline.ProgressMidScene | reel-maker/examples/video5_context_erosion.py:476-477 | the 5-12 s scene is half done at 8.5 s and not started at 5 s |
| Timeline.ChainedJoin | reel-maker/examples/video5_context_erosion.py:55-76 | two chained runs of windows that meet end to start form one chained run |
| Timeline.ChainedOrdered | reel-maker/core/scene_base.py:77 | in chained windows an earlier window ends no later than a later one starts |
| Timeline.ChainedCovers | reel-maker/core/scene_base.py:77 | chained windows leave no gap: a time between the first start and window `k`'s end is covered by one of the first `k + 1` windows |
| Timeline.TilesExactlyOne | reel-maker/core/scene_base.py:77 | in a tiling, every `t` in `[0, duration)` lies in exactly one window, and no window holds a `t` outside it |
| Timeline.TiledSceneAt | reel-maker/core/scene_base.py:77 | on a tiling timeline, the lookup returns the scene whose window holds `t` inside `[0, duration)`, and the last scene at or past the end |
| Compositor.SegmentWidth | reel-maker/core/scene_base.py:19-20 | `int((seg_dur / duration) * totalW)` is never negative for a scene that does not end before it starts (its bracket by the exact share is `Compositor.WidthsBracket`) |
| Compositor.SegmentFill | reel-maker/core/scene_base.py:21 | `segP` is 0 before the window, 1 after it, linear inside it, always in [0, 1], and raises `ZeroDivisionError` exactly when `t` is both start and end |
| Compositor.SegmentFillIsProgress | reel-maker/core/scene_base.py:21 | for a non-empty window, a segment's fill equals the scene progress of `render_frame` at every time |
| Compositor.SegmentFillMonotone | reel-maker/core/scene_base.py:21 | a segment's fill never decreases as time advances |
| Compositor.FillWidth | reel-maker/core/scene_base.py:28 | `fw` is at least 4 pixels, at most `segW - 4` for a fraction in [0, 1] (when `segW >= 8`), and exactly `segW - 4` when full |
| Compositor.LayoutBar | reel-maker/core/scene_base.py:18-31 | the segment loop raises `ZeroDivisionError` exactly when a non-empty list meets a zero duration or a zero-length window at its own `t`; otherwise segment `i` has the scene's proportional width, starts at `pad` plus the widths before it, and carries the scene's fill, fill width and colour |
| Compositor.LayoutCursor | reel-maker/core/scene_base.py:31 | the cursor before segment `i` is the first width plus the cursor over the remaining scenes |
| Compositor.SegmentCommands | reel-maker/core/scene_base.py:23-29 | one segment draws the background box `(x, 55, x + segW - 4, 65)` with radius 5 in white blended at 0.08, then, exactly when `segP > 0`, a fill box `(x, 55, x + fw, 65)` with radius 5 in the scene's colour |
| Compositor.BarCommandsAppend | reel-maker/core/scene_base.py:18-31 | the loop's commands over two runs of scenes are those of the first run followed by those of the second |
| Compositor.BarSegmentAt | reel-maker/core/scene_base.py:18-31 | segment `i`'s commands appear in the bar right after one background per earlier segment and one fill per earlier started segment |
| Compositor.DrawnSegment | reel-maker/core/scene_base.py:18-31 | in the drawn bar, scene `i`'s background starts at the pad plus the widths of the earlier scenes and is `segW - 4` wide; its fill, `FillWidth` wide in the scene's colour, is drawn exactly when the scene's fill fraction is positive |
| Compositor.BarCommands | reel-maker/core/scene_base.py:18-31 | the bar is rounded rectangles only: one background per segment plus one fill per started segment, so its length is the number of segments plus the number of started ones |
| Compositor.StartedCounts | reel-maker/core/scene_base.py:18-31 | the count of started segments (`segP > 0`) is 0 exactly when none has started, and the number of segments exactly when all have |
| Compositor.BarLabels | reel-maker/core/scene_base.py:34-36 | the active scene's label starts at `pad`; the `int(t)` / duration readout ends exactly at `W - pad`; both are grey in the label font |
| Compositor.ProgressBar | reel-maker/core/scene_base.py:9-36 | the drawn bar is exactly the commands of the `LayoutBar` segments followed by the two labels; it fails exactly when the layout divides by zero (`ZeroDivisionError`) or the scene list is empty (`IndexError` from `scenes[-1]`), and contains no painter call |
| Compositor.BarWidthsFill | reel-maker/core/scene_base.py:15-20 | when the scenes tile `[0, duration)`, the rounded-down segment widths add up to at most the 1000-pixel bar and lose less than one pixel per scene |
| Compositor.WidthsBracket | reel-maker/core/scene_base.py:20 | truncating each non-negative share loses less than one pixel per scene, and never adds any |
| Compositor.ChainedLength | reel-maker/core/scene_base.py:19 | the lengths of chained windows add up to the distance from the first start to the last end |
| Compositor.ScaleExact | reel-maker/core/scene_base.py:20 | the exact shares of all scenes add up to the total window length's share of the bar |
| Compositor.CaptionPanel | reel-maker/core/scene_base.py:54-56 | the panel is the text extent plus 50 by 28 pixels, centred (to within one pixel) on `W // 2` and `H - 170` |
| Compositor.CaptionCommands | reel-maker/core/scene_base.py:39-59 | `draw_caption` draws nothing exactly when no caption is active; otherwise it draws the panel and then the white caption text, 25 pixels in from each side and 14 from the top and bottom |
| Compositor.CaptionPanelColor | reel-maker/core/scene_base.py:57-58 | the panel colour, 75% black over the background, is (3, 4, 5) under both blends |
| Compositor.SceneContent | reel-maker/core/scene_base.py:81-83 | a registered painter is called once with the progress; a missing one gives a blank scene with `dict.get`, or a `KeyError` with `dict[...]` |
| Compositor.Overlays | reel-maker/core/scene_base.py:86-87 | the overlays are the progress bar's commands followed by the caption's, fail exactly when the bar does, and contain no painter call |
| Compositor.RenderFrame | reel-maker/core/scene_base.py:73-89 | `render_frame` raises `IndexError` on an empty scene list; a rendered frame had a scene, a progress and overlays that all succeeded |
| Compositor.RenderFramePaint | reel-maker/core/scene_base.py:80-87 | in a rendered frame the active scene's painter, if registered, is called first and only once, with the clamped progress; without it the frame has no painter call |
| Compositor.RenderFrameParts | reel-maker/core/scene_base.py:80-87 | a rendered frame is the scene content followed by the overlays |
| Compositor.RenderFrameCaptionOnTop | reel-maker/core/scene_base.py:86-87 | the caption is the last thing drawn on every frame |
| Compositor.MissingPainterIsBlank | reel-maker/core/scene_base.py:81-83 | registering a painter for the active scene adds only its call in front of the frame and does not change whether the frame renders |
| Compositor.DispatchRulesAgree | reel-maker/examples/video5_context_erosion.py:479-481 | strict lookup gives the same frame as lenient lookup, except for a `KeyError` exactly where the active scene has no painter |
| Compositor.TiledFramesRender | reel-maker/core/scene_base.py:73-89 | when the scenes tile `[0, duration)`, every frame renders at every `t` (under strict lookup, provided every scene id is registered); drawing calls are total in the model (see "Left out") |
| Compositor.TiledWindows | reel-maker/core/scene_base.py:78 | a tiling has no zero-length scene, so the progress division is safe |
| Compositor.TiledOverlays | reel-maker/core/scene_base.py:18-36 | with non-empty windows and a positive duration, the overlays never raise |
| Encoder.TotalFrames | reel-maker/core/renderer.py:27 | at a positive frame rate there are frames to render exactly when the duration is positive |
| Encoder.FrameTime | reel-maker/core/renderer.py:54 | frame `k`'s time times the frame rate is `k`, and it is never negative at a positive rate |
| Encoder.FrameTimesInRange | reel-maker/core/renderer.py:53-54 | frame times start at 0 and step by `1/fps`, and frame `k` is within the `duration * fps` frames exactly when its time is below `duration` |
| Encoder.ReadoutSeconds | reel-maker/core/scene_base.py:36 | the readout's `int(t)` at frame `k` is `k // fps`, the number of whole seconds elapsed |
| Encoder.FrameRenderer | reel-maker/core/scene_base.py:62-91 | the returned closure draws each time `t` as `render_frame(t)` does, and on a tiled timeline (every scene registered under strict dispatch) it never fails in the model, where drawing calls are total |
| Encoder.EncodeFrames | reel-maker/core/renderer.py:53-74 | frame `k` is the render at `k / fps` for all `duration * fps` frames; notices are strictly increasing, every `fps`-th frame when verbose; success is an encoder exit of 0; a failing frame stops the loop with its own error after all earlier frames rendered |
| Encoder.RenderToMp4 | reel-maker/core/renderer.py:13-74 | `render_to_mp4` renders every frame through the shared compositor, and on a tiling timeline no frame fails in the model, so its result is the encoder's exit status (the pipe and launch raises are left out) |
| Encoder.ValidateOutput | reel-maker/core/renderer.py:77-118 | a failed probe reports `FFprobe failed`; a missing `streams` key raises `KeyError` and an empty list raises `IndexError`; otherwise the result is the first stream, reported as valid exactly when codec, size, rate, pixel format and frame count all match |
| Encoder.ValidStreamCounts | reel-maker/core/renderer.py:108-115 | a stream that passes carries a frame count that reads back as `duration * fps` and a rate that reads back as `fps` |
| Encoder.PipedCountValidates | reel-maker/core/renderer.py:108-116 | with every other field right, the check passes exactly when the reported frame count equals `duration * fps` |
| Tempo.Chain | reel-maker/core/tts.py:293-302 | the chain has at least one stage, and is the ratio alone exactly when the ratio is within [0.5, 2] |
| Tempo.ChainSound | reel-maker/core/tts.py:293-302 | the stages multiply back to the ratio, each lies in `atempo`'s [0.5, 2.0], all but the last are the same extreme, and a ratio in range is one stage |
| Tempo.ChainHalves | reel-maker/core/tts.py:296-298 | above 2, the chain is a 2.0 stage followed by the chain for half the ratio, and the loop measure drops |
| Tempo.ChainDoubles | reel-maker/core/tts.py:299-301 | below 0.5, the chain is a 0.5 stage followed by the chain for twice the ratio, and the loop measure drops |
| Tempo.HalvingStages | reel-maker/core/tts.py:296-298 | the first loop ends with a ratio in (0, 2], and its stages followed by the remaining chain are the whole chain |
| Tempo.DoublingStages | reel-maker/core/tts.py:299-301 | the second loop ends with a ratio in [0.5, 2], and its stages followed by the remaining chain are the whole chain |
| Tempo.AtempoChain | reel-maker/core/tts.py:293-302 | the two loops and the final stage build a non-empty chain of in-range stages whose product is the ratio |
| Tempo.ChainExample | reel-maker/core/tts.py:293-302 | a 12.9 s take for a 6.4 s target gets one 2.0 stage and then 12.9/12.8 |
| Tempo.TimeStretch | reel-maker/core/tts.py:279-309 | `_time_stretch` stretches exactly when both lengths are positive and the run succeeds, and the stretched clip lasts exactly the target; otherwise the input is copied |
| Backends.ApiKey | reel-maker/core/tts.py:53 | the credential is the first non-empty of the two variables, preferring `DEEPINFRA_API_KEY`, or none |
| Backends.ParseBackend | reel-maker/core/tts.py:265-276 | the dispatch recognises exactly the four backend names |
| Backends.NameRoundTrip | reel-maker/core/tts.py:265-276 | every backend's name dispatches to that backend, and names are distinct |
| Backends.Usable | reel-maker/core/tts.py:34-67 | a detection probe succeeds exactly when dispatching that backend passes its import, credential and library checks and, for the two Dia backends, a CUDA device is present; a usable backend dispatches for every text and seed |
| Backends.DetectBackend | reel-maker/core/tts.py:29-69 | detection returns a usable backend with no usable backend ranked before it, and none exactly when nothing is usable |
| Backends.FliteVoice | reel-maker/core/tts.py:225-232 | an unknown voice name falls back to `rms` |
| Backends.DiaScript | reel-maker/core/tts.py:96 | Dia's script is the narration framed by `[S1] ` and ` [S1]`, ten characters longer |
| Backends.FliteText | reel-maker/core/tts.py:239 | the text Flite speaks is never longer than the script, and is the stripped script when it holds no speaker tag |
| Backends.GenerateScene | reel-maker/core/tts.py:265-276 | dispatch raises `ValueError` exactly for a name outside the four |
| Backends.GenerateSceneRequests | reel-maker/core/tts.py:85-239 | which missing package, credential or library makes each backend fail, and the request each makes: Dia gets the tagged script and the seed, the hosted API gets the text and the bearer credential, Flite gets the untagged, stripped text and the `rms` voice |
| Backends.DetectedBackendGenerates | reel-maker/core/tts.py:29-69 | whatever detection picks can be dispatched without an error |
| Backends.FliteUndoesDiaScript | reel-maker/core/tts.py:238-239 | a Dia script of tag-free text reaches Flite as the stripped narration |
| Backends.NestedTagSurvives | reel-maker/core/tts.py:239 | a single `replace` pass leaves a tag that a removed tag had split: `"[S[S1]1]"` becomes `"[S1]"` |
| Narration.TargetSpeechDuration | reel-maker/core/tts.py:351-355 | the target is the scene length less 0.6 s, or less 0.2 s when that would be under 1 s, so never more than the length less 0.2 s |
| Narration.DelayMs | reel-maker/core/tts.py:382 | `int((start + 0.3) * 1000)` is the whole number of milliseconds in the offset, rounded down, for any non-negative offset |
| Narration.SpeechStart | reel-maker/core/tts.py:382-384 | the clip starts on a whole millisecond: the delay passed to `adelay`, in seconds |
| Narration.SpeechStartBounds | reel-maker/core/tts.py:382 | a clip starts 0.3 s into its scene, less under a millisecond of truncation |
| Narration.SpeechEnd | reel-maker/core/tts.py:351-382 | stretched speech ends at least 0.3 s before the scene ends when the scene lasts 1.6 s or more, and about 0.1 s after it ends otherwise |
| Narration.SevenSecondTarget | reel-maker/core/tts.py:351-355 | a 7 s scene gets a 6.4 s speech target |
| Narration.ShortSceneOverruns | reel-maker/core/tts.py:353-355 | a 0-1 s scene gets a 0.8 s target from a 300 ms offset, ending at 1.1 s |
| Narration.SpeechNeverOverlaps | reel-maker/core/tts.py:351-386 | on a chained timeline starting at or after 0, a scene's speech start plus its stretch target falls before the next scene's speech start |
| Narration.StretchedClipNeverOverlaps | reel-maker/core/tts.py:283-309 | a clip the stretch run succeeded on lasts `take / Product(stages)`, which is its target, so it ends before the next scene's clip starts |
| Narration.CopiedClipOverlaps | reel-maker/core/tts.py:286-309 | a clip the stretch run failed on keeps its take's length: a 10 s take in a 0-7 s scene still plays at 7.3 s, when the next clip starts |
| Narration.Label | reel-maker/core/tts.py:385 | a clip label has the form `[s…]` |
| Narration.LabelsDistinct | reel-maker/core/tts.py:385-388 | two scenes get the same label exactly when they are the same scene |
| Narration.BuildMix | reel-maker/core/tts.py:376-403 | one delay chain per scene, taking input `i`, delayed by the scene's offset and padded to the duration; the mix takes the chain outputs in order, with `inputs` and `volume` both equal to the scene count, and is cut at the duration |
| Narration.MixInputsDistinct | reel-maker/core/tts.py:383-391 | each delayed clip enters the mix exactly once |
| Narration.DelaysOrdered | reel-maker/core/tts.py:382 | a scene that starts no earlier is delayed at least as much |
| Narration.ChooseBackend | reel-maker/core/tts.py:330-339 | a forced name is used as given; otherwise `RuntimeError` exactly when detection finds nothing, else the detected backend's name |
| Narration.SynthesizeScenes | reel-maker/core/tts.py:350-374 | every scene is synthesised and stretched in order; the loop succeeds exactly when every scene's dispatch succeeds, and otherwise fails with the first failing scene's error |
| Narration.GenerateNarration | reel-maker/core/tts.py:314-414 | a backend error or a scene's error propagates unchanged; the mix failure is raised exactly when every scene succeeded and the mix exited non-zero; a success records each scene's request and clip, the clip the mix reads for each scene, and the mix graph |
| Narration.LastWithId | reel-maker/core/tts.py:366 | the last scene before `hi` with the given id, or none exactly when no scene before `hi` has it |
| Narration.HeardClips | reel-maker/core/tts.py:366-379 | the mix reads `stretched_{id}.wav`: a scene whose id no later scene reuses is heard as its own clip, and scenes sharing an id are heard alike |
| Narration.DistinctIdsHeardAsSynthesised | reel-maker/core/tts.py:366-379 | with distinct ids the mix hears every scene's own clip |
| Narration.SharedIdLosesClip | reel-maker/core/tts.py:366-379 | two scenes with id 3: the mix hears the second clip twice, and the first is lost |
| Narration.EmptyScriptSkipsDispatch | reel-maker/core/tts.py:350-407 | with no scenes, even an unknown forced backend reaches the mix, whose failure is then raised |
| Video5.ScenesTile | reel-maker/examples/video5_context_erosion.py:46-53 | the six scenes tile the 57 seconds, and every scene id has a painter |
| Video5.CaptionsTile | reel-maker/examples/video5_context_erosion.py:55-76 | the 44 captions tile the 57 seconds |
| Video5.OneCaptionAtATime | reel-maker/examples/video5_context_erosion.py:455-458 | during the reel exactly one caption shows at a time, and none shows once it is over |
| Video5.SceneLookup | reel-maker/examples/video5_context_erosion.py:476 | during the reel the lookup returns the one scene whose window holds `t`, and from 57 s on it falls back to scene 6 |
| Video5.SecondCaptionWindow | reel-maker/examples/video5_context_erosion.py:456 | the caption on `[1.0, 2.0)` is active at 1.0 s and gives way to the next one at 2.0 s |
| Video5.EveryFrameRenders | reel-maker/examples/video5_context_erosion.py:472-486 | the script's strict painter lookup never raises: every frame renders |
| Video5.BarSegments | reel-maker/examples/video5_context_erosion.py:436-447 | the segments are 87, 122, 228, 228, 175 and 157 pixels wide, 997 in all |
| Video5.ShareOf | reel-maker/examples/video5_context_erosion.py:441 | a scene's segment width is its share of the 1000 pixels, rounded down |
| Video5.OverlayColorsAgree | reel-maker/examples/video5_context_erosion.py:443-467 | the segment background and the caption panel colours are the same under the script's blend and the core's |
| Video5.RenderReel | reel-maker/examples/video5_context_erosion.py:489-532 | `main` renders exactly 1710 frames, each the frame at `k / 30`, prints a notice at frames 0, 30, …, 1680, and succeeds exactly when the encoder exits with 0 |
| Video5.NoticesEverySecond | reel-maker/examples/video5_context_erosion.py:518-520 | the frames at which a notice is printed are exactly `0, 30, …, 1680`, in order |
| Video5.SortedSameElements | reel-maker/examples/video5_context_erosion.py:513-520 | two strictly increasing lists with the same elements are equal |

## Left out

- Pixels: Pillow's rasterisation, `Image.new`, `img.tobytes()`, the font
  files and `getbbox` are not modelled. A frame is its list of drawing
  commands, and text extents are an input.
- `draw_line`, `font_sans` and `font_mono` are not modelled. A font is the
  value `Font(family, size, bold)`.
- The six scene painters of the Video #5 script (`draw_scene1` …
  `draw_scene6`) are not modelled. They appear only as named calls with
  their progress.
- External processes are inputs: the encoder and the probe, the `ffmpeg`
  stretch and mix runs, and the mux. The pipe writes, `wait`, stderr
  capture, `os.path.getsize` and the temporary directory with its cleanup
  are left out.
- `mux_audio_video` is not modelled. It is one external run and its
  diagnostic print.
- The speech engines are not modelled: the Dia model inference, the hosted
  API call with its HTTP errors, and the Flite library calls. What each
  backend hands to its engine is modelled; the audio each returns is an
  input length.
- Backends.GenerateScene: only the first library Flite loads
  (`libflite.so.2.2`) is checked. The model does not raise these runtime
  failures:
  - the two other base Flite libraries (`libflite_usenglish`,
    `libflite_cmulex`) and the voice library failing to load;
  - a missing CUDA device at `.to("cuda")`;
  - the native Dia backend's `import soundfile`, which runs only after
    generation;
  - a failed PCM-to-WAV conversion of the hosted API's audio, which raises
    through `check=True`;
  - Flite's post-processing `ffmpeg` run, whose exit status is not
    checked. If Flite wrote no raw file, `os.remove(raw_wav)` raises
    `FileNotFoundError`. If the run itself failed, the scene's clip is
    missing, and `_time_stretch`'s `wave.open` raises on it.
- Narration.BuildMix: the graph keeps the delay chains, the `amix` inputs,
  `inputs=n`, `volume=n` and the `-t` cut. It does not carry amix's
  `duration=first:dropout_transition=0` options or the output format
  `-c:a pcm_s16le -ar 44100 -ac 1`. These are constant text that no
  property here depends on.
- Tempo.TimeStretch: the `aresample=44100` and
  `loudnorm=I=-16:TP=-1.5:LRA=11` stages after the `atempo` chain, and the
  `-ac 1` mono output, are not modelled. A clip is its stages, not its
  samples, so loudness and sample rate have no place in it.
- `Timeline.duration` and the `duration` of `Narration.BuildMix` are
  integers. `draw_progress_bar` and `generate_narration` would accept a
  fractional duration, but only `render_to_mp4`'s `range(duration * fps)`
  needs an integer. The model takes the integer case, which the default of
  57 s and the Video #5 script use.
- Encoder.RenderToMp4: the encoder is an exit status given after the
  loop. A missing `ffmpeg` makes `subprocess.Popen` raise
  `FileNotFoundError` (renderer.py:51), and that is not modelled.
- Encoder.EncodeFrames: an encoder that exits before reading all its input
  makes `proc.stdin.write` (renderer.py:56) or `proc.stdin.close()`
  (renderer.py:62) raise `BrokenPipeError`. That is not modelled either.
  The model reports every encoder failure as the `False` result.
- Compositor.TiledFramesRender, Encoder.FrameRenderer and
  Encoder.RenderToMp4 treat Pillow's drawing calls as total. A scene
  shorter than 4/1000 of the duration has `segW <= 3`, so its background
  box `(x, 55, x + segW - 4, 65)` has `x1 < x0`. Pillow's
  `rounded_rectangle` rejects such a box with `ValueError`, and
  `draw_rounded_rect` floors the radius but does not reorder the box. The
  model draws it. The Video #5 script's narrowest segment is 87 px
  (`Video5.BarSegments`).
- Progress printing and formatting are not modelled: the `verbose` prints,
  the quality table, and the `:5.1f`, `:.1f` and `:.4f` renderings,
  including the `atempo={r:.4f}` text of the last stage. The
  `"{int(t)}s / {duration}s"` readout is kept as its two integers.
- WAV headers are not read (`wave.open`, `getnframes() / getframerate()`).
  The clip length is an input.
- Arithmetic is exact: times and ratios are exact reals, not IEEE doubles,
  so float rounding in `t = frame / fps`, in the segment shares and in the
  millisecond delays is not modelled.
- Encoder.ValidateOutput: `float(stream.get("duration", 0))` is not
  modelled, so a probe duration that is not a number does not raise here.
  JSON parsing of the probe's output is an input too.
- Text.RemoveAll: its own contract states only that the result is no
  longer. What it removes is stated by `Text.RemoveAllSkips`,
  `Text.RemoveAllLeading`, `Text.RemoveAllKeepsFront` and
  `Text.RemoveAllTagFree`.
- `core/__init__.py` is not part of this model.

=== FILE: backends.dfy ===
/** The speech-synthesis backends of `core/tts.py`: which one auto-detection
    picks, and what request each backend hands to its engine for one scene.
    The engines themselves (model inference, the hosted API, the Flite
    library) are not modelled; what the machine has installed is an `Env`. */
module Backends {
  import opened Basics
  import opened Text

  /** What the host offers: importable packages, a CUDA device, the two
      credential variables (absent or set, possibly to ""), and whether the
      Flite shared library loads. */
  datatype Env = Env(
    torch: bool,
    cuda: bool,
    transformersDia: bool,
    diaPackage: bool,
    deepinfraKey: Option<string>,
    higgsKey: Option<string>,
    requests: bool,
    flite: bool)

  /** `DEEPINFRA_API_KEY or HIGGS_API_KEY`, keeping only a truthy (non-empty) result. */
  function ApiKey(env: Env): (r: Option<string>)
    ensures r.Some? ==> r.value != ""
    ensures r.Some? <==> (env.deepinfraKey.Some? && env.deepinfraKey.value != "")
                         || (env.higgsKey.Some? && env.higgsKey.value != "")
    ensures env.deepinfraKey.Some? && env.deepinfraKey.value != "" ==> r == env.deepinfraKey
  {
    if env.deepinfraKey.Some? && env.deepinfraKey.value != "" then env.deepinfraKey
    else if env.higgsKey.Some? && env.higgsKey.value != "" then env.higgsKey
    else None
  }

  datatype Backend = DiaHf | DiaNative | HiggsApi | Flite
  {
    /** The name the code passes around. */
    function Name(): string
    {
      match this
      case DiaHf => "dia-hf"
      case DiaNative => "dia"
      case HiggsApi => "higgs-api"
      case Flite => "flite"
    }

    /** Position in the priority chain, best first. */
    function Rank(): nat
    {
      match this
      case DiaHf => 0
      case DiaNative => 1
      case HiggsApi => 2
      case Flite => 3
    }
  }

  /** The `if`/`elif` chain of `_generate_scene`, read as a name lookup. */
  function ParseBackend(name: string): (r: Option<Backend>)
    ensures r.Some? ==> r.value.Name() == name
    ensures r.None? ==> forall b: Backend :: b.Name() != name
  {
    if name == "dia-hf" then Some(DiaHf)
    else if name == "dia" then Some(DiaNative)
    else if name == "higgs-api" then Some(HiggsApi)
    else if name == "flite" then Some(Flite)
    else None
  }

  /** Every backend name reads back as that backend, and names are distinct. */
  lemma NameRoundTrip(b: Backend, c: Backend)
    ensures ParseBackend(b.Name()) == Some(b)
    ensures b.Name() == c.Name() <==> b == c
  {
  }

  /** The probe each step of `detect_backend` makes. */
  predicate Usable(env: Env, b: Backend): (ok: bool)
    ensures ok <==> GenerateScene(b.Name(), "", 0, env).Ok? && (b.Rank() <= 1 ==> env.cuda)
    ensures ok ==> forall text, seed :: GenerateScene(b.Name(), text, seed, env).Ok?
  {
    match b
    case DiaHf => env.torch && env.cuda && env.transformersDia
    case DiaNative => env.torch && env.cuda && env.diaPackage
    case HiggsApi => ApiKey(env).Some? && env.requests
    case Flite => env.flite
  }

  /** `detect_backend`: the first backend of the priority chain whose probe succeeds. */
  function DetectBackend(env: Env): (r: Option<Backend>)
    ensures r.Some? ==> Usable(env, r.value)
    ensures r.Some? ==> forall b: Backend :: b.Rank() < r.value.Rank() ==> !Usable(env, b)
    ensures r.None? <==> forall b: Backend :: !Usable(env, b)
  {
    if Usable(env, DiaHf) then Some(DiaHf)
    else if Usable(env, DiaNative) then Some(DiaNative)
    else if Usable(env, HiggsApi) then Some(HiggsApi)
    else if Usable(env, Flite) then Some(Flite)
    else None
  }

  /** The Flite voices `_generate_flite` knows; any other name falls back to `rms`. */
  datatype Voice = Rms | Slt | Kal16 | Awb

  function FliteVoice(name: string): (v: Voice)
    ensures name !in {"slt", "kal16", "awb"} ==> v == Rms
  {
    if name == "slt" then Slt
    else if name == "kal16" then Kal16
    else if name == "awb" then Awb
    else Rms
  }

  /** What a backend hands to its engine for one scene. */
  datatype SynthRequest =
    | DiaHfRequest(script: string, seed: int)
    | DiaNativeRequest(script: string, seed: int)
    | HiggsRequest(text: string, authorization: string)
    | FliteRequest(text: string, voice: Voice)

  /** A single narrator in Dia's script format, with a closing tag for a clean tail. */
  function DiaScript(text: string): (r: string)
    ensures |r| == |text| + 10
    ensures r[..5] == "[S1] " && r[5..|r| - 5] == text && r[|r| - 5..] == " [S1]"
  {
    "[S1] " + text + " [S1]"
  }

  /** The text Flite speaks: both speaker tags removed (one `replace` pass
      each), then surrounding whitespace stripped. */
  function FliteText(text: string): (r: string)
    ensures |r| <= |text|
    ensures TagFree(text, "[S1]") && TagFree(text, "[S2]") ==> r == Strip(text)
  {
    assert TagFree(text, "[S1]") && TagFree(text, "[S2]") ==> RemoveAll(RemoveAll(text, "[S1]"), "[S2]") == text by {
      if TagFree(text, "[S1]") && TagFree(text, "[S2]") {
        RemoveAllTagFree(text, "[S1]");
        RemoveAllTagFree(text, "[S2]");
      }
    }
    Strip(RemoveAll(RemoveAll(text, "[S1]"), "[S2]"))
  }

  /** `_generate_scene` and the backend functions up to the engine call:
      an unknown name is a `ValueError`; each backend's imports, credential
      and library are checked in the order the code checks them. */
  function GenerateScene(name: string, text: string, seed: int, env: Env): (r: Result<SynthRequest>)
    ensures ParseBackend(name).None? <==> r == Err(UnknownBackend(name))
  {
    match ParseBackend(name)
    case None => Err(UnknownBackend(name))
    case Some(DiaHf) =>
      if !env.torch then Err(ImportFailure("torch"))
      else if !env.transformersDia then Err(ImportFailure("transformers"))
      else Ok(DiaHfRequest(DiaScript(text), seed))
    case Some(DiaNative) =>
      if !env.torch then Err(ImportFailure("torch"))
      else if !env.diaPackage then Err(ImportFailure("dia"))
      else Ok(DiaNativeRequest(DiaScript(text), seed))
    case Some(HiggsApi) =>
      if !env.requests then Err(ImportFailure("requests"))
      else (match ApiKey(env)
        case None => Err(MissingApiKey)
        case Some(key) => Ok(HiggsRequest(text, "Bearer " + key)))
    case Some(Flite) =>
      if !env.flite then Err(LibraryMissing("libflite.so.2.2"))
      else Ok(FliteRequest(FliteText(text), FliteVoice("rms")))
  }

  /** Which backends fail for which missing piece, and the request each one
      makes: Dia gets the tagged script and the seed, the hosted API the
      text and a bearer credential, Flite the untagged text and the `rms` voice. */
  lemma GenerateSceneRequests(name: string, text: string, seed: int, env: Env)
    ensures var r := GenerateScene(name, text, seed, env);
            && (name == "dia-hf" ==> (r.Ok? <==> env.torch && env.transformersDia))
            && (name == "dia" ==> (r.Ok? <==> env.torch && env.diaPackage))
            && (name == "higgs-api" ==> (r.Ok? <==> env.requests && ApiKey(env).Some?))
            && (name == "flite" ==> (r.Ok? <==> env.flite))
            && (name == "dia-hf" && r.Ok? ==> r.value == DiaHfRequest(DiaScript(text), seed))
            && (name == "dia" && r.Ok? ==> r.value == DiaNativeRequest(DiaScript(text), seed))
            && (name == "higgs-api" ==> (r == Err(MissingApiKey) <==> env.requests && ApiKey(env).None?))
            && (name == "higgs-api" && r.Ok? ==> ApiKey(env).Some? && r.value == HiggsRequest(text, "Bearer " + ApiKey(env).value))
            && (name == "flite" && r.Ok? ==> r.value == FliteRequest(FliteText(text), Rms))
  {
  }

  /** Whatever auto-detection picks can be dispatched without an error. */
  lemma DetectedBackendGenerates(env: Env, text: string, seed: int)
    requires DetectBackend(env).Some?
    ensures GenerateScene(DetectBackend(env).value.Name(), text, seed, env).Ok?
  {
  }

  /** A script written for Dia reaches Flite as the plain narration: the
      speaker tags it adds are taken out again and the padding is stripped. */
  lemma FliteUndoesDiaScript(text: string)
    requires TagFree(text, "[S1]") && TagFree(text, "[S2]")
    ensures FliteText(DiaScript(text)) == Strip(text)
  {
    var tag1, tag2 := "[S1]", "[S2]";
    var padded := " " + text + " ";
    assert DiaScript(text) == tag1 + (padded + tag1);
    RemoveAllLeading(tag1, padded + tag1);
    PaddedTagFree(text, tag1, tag1);
    RemoveAllKeepsFront(padded, tag1, tag1);
    RemoveAllLeading(tag1, []);
    assert padded + [] == padded;
    assert RemoveAll(DiaScript(text), tag1) == padded;
    PaddedTagFree(text, [], tag2);
    assert padded == " " + text + " " + [];
    RemoveAllTagFree(padded, tag2);
    StripPadded(text);
  }

  /** `replace` makes one pass, so a tag split by another one survives it:
      the Flite text can still hold a speaker tag. */
  lemma NestedTagSurvives()
    ensures RemoveAll("[S[S1]1]", "[S1]") == "[S1]"
  {
    var s := "[S[S1]1]";
    assert s[..4][2] != "[S1]"[2];
    assert s[1..][..4][1] != "[S1]"[1];
    assert s[2..][..4] == "[S1]";
    assert s[2..][4..] == "1]";
    assert RemoveAll("1]", "[S1]") == "1]";
    assert RemoveAll(s[1..], "[S1]") == [s[1]] + RemoveAll(s[2..], "[S1]");
  }
}

=== FILE: basics.dfy ===
/** Shared vocabulary for the reel-maker model: optional values, results that
    carry the exceptions the Python code raises, the integer conversions the
    code applies to floats, and Python's decimal rendering of integers. */
module Basics {

  datatype Option<+T> = None | Some(value: T)

  /** The exceptions the modelled code can raise, as values. */
  datatype Fault =
    | IndexError          // `scenes[-1]` on an empty list, `streams[0]` on an empty list
    | KeyError            // a strict dict lookup on a missing key
    | ZeroDivision        // a float division by zero
    | UnknownBackend(name: string)  // ValueError from the backend dispatch
    | MissingApiKey       // ValueError from the hosted backend without a credential
    | NoBackendAvailable  // RuntimeError when auto-detection finds nothing
    | MixFailed           // RuntimeError when the mix run exits non-zero
    | ImportFailure(packageName: string)  // ImportError for a missing Python package
    | LibraryMissing(libraryName: string)  // OSError when a shared library does not load

  datatype Result<+T> = Ok(value: T) | Err(fault: Fault) {
    predicate IsFailure() { Err? }

    function PropagateFailure<U>(): Result<U>
      requires Err?
    {
      Err(fault)
    }

    function Extract(): T
      requires Ok?
    {
      value
    }
  }

  function Min(a: int, b: int): int { if a <= b then a else b }

  function Max(a: int, b: int): int { if a >= b then a else b }

  /** Python's `int(x)` on a float: truncation toward zero. */
  function Trunc(x: real): (r: int)
    ensures 0.0 <= x ==> r as real <= x < r as real + 1.0
    ensures x < 0.0 ==> r as real - 1.0 < x <= r as real
  {
    if x >= 0.0 then x.Floor else -((-x).Floor)
  }

  /** `max(0, min(1, x))`. */
  function ClampUnit(x: real): (r: real)
    ensures 0.0 <= r <= 1.0
    ensures 0.0 <= x <= 1.0 ==> r == x
    ensures x < 0.0 ==> r == 0.0
    ensures x > 1.0 ==> r == 1.0
  {
    if x < 0.0 then 0.0 else if x > 1.0 then 1.0 else x
  }

  /** A positive factor keeps the sign of the other. */
  lemma MulSign(x: real, d: real)
    requires d > 0.0
    ensures x > 0.0 <==> x * d > 0.0
    ensures x == 0.0 <==> x * d == 0.0
    ensures x < 0.0 <==> x * d < 0.0
  {
  }

  function Sum(s: seq<int>): int
  {
    if |s| == 0 then 0 else s[0] + Sum(s[1..])
  }

  // ---------------------------------------------------------------------
  // Decimal rendering of integers, as Python's `str(n)` / `f"{n}"` does it.

  predicate IsDigit(c: char) { '0' <= c <= '9' }

  predicate AllDigits(s: string) { forall i :: 0 <= i < |s| ==> IsDigit(s[i]) }

  function DigitChar(d: int): (c: char)
    requires 0 <= d <= 9
    ensures IsDigit(c)
  {
    (48 + d) as char
  }

  function DigitValue(c: char): (d: int)
    requires IsDigit(c)
    ensures 0 <= d <= 9
  {
    c as int - 48
  }

  /** Decimal digits of `n`, most significant first, without leading zeros. */
  function NatToString(n: nat): (s: string)
    ensures |s| >= 1 && AllDigits(s)
    ensures s[0] == '0' ==> n == 0
    decreases n
  {
    if n < 10 then [DigitChar(n)] else NatToString(n / 10) + [DigitChar(n % 10)]
  }

  /** `str(n)`: a minus sign exactly for negative numbers, then the digits. */
  function IntToString(n: int): (s: string)
    ensures |s| >= 1
    ensures s[0] == '-' <==> n < 0
    ensures n >= 0 ==> AllDigits(s)
    ensures n < 0 ==> AllDigits(s[1..])
  {
    if n < 0 then "-" + NatToString(-n) else NatToString(n)
  }

  /** Reads back a run of decimal digits. */
  function ParseNat(s: string): nat
    requires AllDigits(s)
    decreases |s|
  {
    if |s| == 0 then 0 else ParseNat(s[..|s| - 1]) * 10 + DigitValue(s[|s| - 1])
  }

  /** Reads back an optionally negated run of decimal digits. */
  function ParseInt(s: string): int
  {
    if |s| > 0 && s[0] == '-' && AllDigits(s[1..]) then 0 - ParseNat(s[1..]) as int
    else if AllDigits(s) then ParseNat(s)
    else 0
  }

  lemma {:induction false} ParseNatToString(n: nat)
    ensures ParseNat(NatToString(n)) == n
    decreases n
  {
    if n >= 10 {
      var s := NatToString(n);
      var d := DigitChar(n % 10);
      assert s == NatToString(n / 10) + [d];
      assert s[..|s| - 1] == NatToString(n / 10);
      ParseNatToString(n / 10);
      assert DigitValue(d) == n % 10;
    } else {
      var s := NatToString(n);
      assert s[..0] == [];
    }
  }

  /** `IntToString` loses nothing: the parser recovers every integer. */
  lemma IntToStringRoundTrip(n: int)
    ensures ParseInt(IntToString(n)) == n
  {
    var s := IntToString(n);
    if n < 0 {
      assert s == "-" + NatToString(-n);
      assert s[1..] == NatToString(-n);
      ParseNatToString(-n);
      assert |s| > 0 && s[0] == '-' && AllDigits(s[1..]);
      assert ParseInt(s) == 0 - ParseNat(s[1..]) as int;
    } else {
      assert s == NatToString(n);
      ParseNatToString(n);
      assert s[0] != '-' && AllDigits(s);
      assert ParseInt(s) == ParseNat(s);
    }
  }

  /** Two integers render to the same decimal string only when they are equal. */
  lemma IntToStringInjective(a: int, b: int)
    ensures IntToString(a) == IntToString(b) <==> a == b
  {
    IntToStringRoundTrip(a);
    IntToStringRoundTrip(b);
  }

  lemma NatToStringInjective(a: nat, b: nat)
    ensures NatToString(a) == NatToString(b) <==> a == b
  {
    ParseNatToString(a);
    ParseNatToString(b);
  }
}

=== FILE: compositor.dfy ===
/** The frame compositor of `core/scene_base.py`: the segmented progress bar,
    the caption overlay and `render_frame`, which dispatches to a scene
    painter and then draws both overlays.  The Video #5 script repeats the same
    code with a few differences, captured by `Style`. */
module Compositor {
  import opened Basics
  import opened Drawing
  import opened Timeline

  /** How a missing scene painter is handled: `dict.get` and skip, or `dict[...]`. */
  datatype DispatchRule = Lenient | Strict

  /** How the overlays are drawn: the label and caption fonts and the
      drawing helpers' rules, which differ between the shared core and the
      Video #5 script. */
  datatype Look = Look(labelFont: Font, captionFont: Font, corner: CornerRule, blend: BlendRule)

  /** Everything about a compositor that is not data: its look and how it dispatches. */
  datatype Style = Style(look: Look, dispatch: DispatchRule)

  /** `core/scene_base.py`: `font_mono` defaults to bold. */
  const CoreStyle := Style(Look(Font(Mono, 24, true), Font(Mono, 48, true), Floored, Clamped), Lenient)

  const BarY: int := 55
  const BarH: int := 10
  const BarPad: int := 40
  /** `totalW = W - pad * 2`. */
  const BarWidth: int := FrameWidth - BarPad * 2
  /** The caption's vertical centre, `H - 170`. */
  const CaptionY: int := FrameHeight - 170

  // ---------------------------------------------------------------------
  // Progress bar

  /** `int((seg_dur / duration) * totalW)`. */
  function SegmentWidth(s: Scene, duration: int): (r: int)
    requires duration != 0
    ensures duration > 0 && s.start <= s.end ==> r >= 0
  {
    assert duration > 0 && s.start <= s.end ==> (s.end - s.start) / duration as real * BarWidth as real >= 0.0 by {
      if duration > 0 && s.start <= s.end {
        RatioBounds(s.end - s.start, duration as real);
      }
    }
    Trunc((s.end - s.start) / duration as real * BarWidth as real)
  }

  function SegmentWidths(scenes: seq<Scene>, duration: int): (r: seq<int>)
    requires duration != 0
    ensures |r| == |scenes|
    ensures forall i :: 0 <= i < |scenes| ==> r[i] == SegmentWidth(scenes[i], duration)
  {
    seq(|scenes|, i requires 0 <= i < |scenes| => SegmentWidth(scenes[i], duration))
  }

  /** `segP`: 0 before the window, 1 after it, linear inside it.  At `t == start
      == end` the division is by zero. */
  function SegmentFill(s: Scene, t: real): (r: Result<real>)
    ensures r.Err? <==> s.start == t == s.end
    ensures r.Err? ==> r.fault == ZeroDivision
    ensures r.Ok? ==> 0.0 <= r.value <= 1.0
    ensures t < s.start ==> r == Ok(0.0)
    ensures s.start <= t && s.end < t ==> r == Ok(1.0)
    ensures s.start <= t <= s.end && s.start < s.end ==> r == Ok((t - s.start) / (s.end - s.start))
  {
    if t < s.start then Ok(0.0)
    else if t > s.end then Ok(1.0)
    else if s.end - s.start == 0.0 then Err(ZeroDivision)
    else
      RatioBounds(t - s.start, s.end - s.start);
      Ok((t - s.start) / (s.end - s.start))
  }

  /** Each sub-segment fills with the same clamp as the scene progress: for a
      non-empty window the two agree at every time. */
  lemma SegmentFillIsProgress(s: Scene, t: real)
    requires s.start < s.end
    ensures SegmentFill(s, t) == Progress(s, t)
  {
    RatioBounds(t - s.start, s.end - s.start);
  }

  /** A segment never empties as time advances. */
  lemma SegmentFillMonotone(s: Scene, t1: real, t2: real)
    requires s.start < s.end && t1 <= t2
    ensures SegmentFill(s, t1).value <= SegmentFill(s, t2).value
  {
    var d := s.end - s.start;
    if s.start <= t1 <= s.end && s.start <= t2 <= s.end {
      DivMonotone(t1 - s.start, t2 - s.start, d);
    }
  }

  lemma DivMonotone(a: real, b: real, d: real)
    requires d > 0.0 && a <= b
    ensures a / d <= b / d
  {
    assert b / d - a / d == (b - a) / d;
    RatioBounds(b - a, d);
  }

  /** `fw = max(4, int((segW - 4) * segP))`. */
  function FillWidth(segW: int, segP: real): (r: int)
    ensures r >= 4
    ensures 0.0 <= segP <= 1.0 && segW >= 8 ==> r <= segW - 4
    ensures segP == 1.0 && segW >= 8 ==> r == segW - 4
  {
    var v := (segW - 4) as real * segP;
    assert 0.0 <= segP <= 1.0 && segW >= 8 ==> v <= (segW - 4) as real by {
      if 0.0 <= segP <= 1.0 && segW >= 8 {
        MulNonneg((segW - 4) as real, 1.0 - segP);
      }
    }
    Max(4, Trunc(v))
  }

  /** One bar segment as the loop computes it: cursor, width, fill fraction,
      the fill's width `fw`, colour. */
  datatype Segment = Segment(x: int, width: int, fill: real, fillWidth: int, color: Color)

  /** The `for s in scenes` loop of `draw_progress_bar`, starting with the
      cursor at `x`: each segment starts where the previous one's width ends. */
  function LayoutBar(scenes: seq<Scene>, t: real, duration: int, x: int): (r: Result<seq<Segment>>)
    ensures r.Err? ==> r.fault == ZeroDivision
    ensures r.Err? <==> |scenes| > 0 && (duration == 0 || exists i :: 0 <= i < |scenes| && SegmentFill(scenes[i], t).Err?)
    ensures r.Ok? ==> |r.value| == |scenes|
    ensures r.Ok? ==> forall i :: 0 <= i < |scenes| ==>
              && r.value[i].width == SegmentWidth(scenes[i], duration)
              && r.value[i].x == x + Sum(SegmentWidths(scenes, duration)[..i])
              && Ok(r.value[i].fill) == SegmentFill(scenes[i], t)
              && r.value[i].fillWidth == FillWidth(r.value[i].width, r.value[i].fill)
              && r.value[i].color == scenes[i].color
    decreases |scenes|
  {
    if |scenes| == 0 then Ok([])
    else if duration == 0 then Err(ZeroDivision)
    else
      var w := SegmentWidth(scenes[0], duration);
      var p :- SegmentFill(scenes[0], t);
      var rest :- LayoutBar(scenes[1..], t, duration, x + w);
      var r := [Segment(x, w, p, FillWidth(w, p), scenes[0].color)] + rest;
      LayoutCursor(scenes, duration);
      assert forall i :: 1 <= i < |scenes| ==> scenes[1..][i - 1] == scenes[i];
      Ok(r)
  }

  /** The cursor sum over a list is the first width plus the cursor sum over its tail. */
  lemma LayoutCursor(scenes: seq<Scene>, duration: int)
    requires |scenes| > 0 && duration != 0
    ensures forall i :: 1 <= i <= |scenes| ==>
              Sum(SegmentWidths(scenes, duration)[..i])
              == SegmentWidth(scenes[0], duration) + Sum(SegmentWidths(scenes[1..], duration)[..i - 1])
  {
    var ws := SegmentWidths(scenes, duration);
    var ts := SegmentWidths(scenes[1..], duration);
    forall i | 1 <= i <= |scenes|
      ensures Sum(ws[..i]) == ws[0] + Sum(ts[..i - 1])
    {
      assert ws[..i][1..] == ts[..i - 1];
    }
  }

  /** The commands for one segment: the dim background, `4` px short of the
      segment's width, then, exactly when the segment has started, the fill
      `fillWidth` px wide in the scene's colour; both with corner radius 5. */
  function SegmentCommands(look: Look, seg: Segment): (r: seq<DrawCmd>)
    ensures |r| == (if seg.fill > 0.0 then 2 else 1)
    ensures var bg := Box(seg.x, BarY, seg.x + seg.width - 4, BarY + BarH);
            r[0] == RoundedRectangle(bg, Radius(look.corner, 5, bg), Some(Blend(look.blend, WHITE, 0.08)), None, 1)
    ensures seg.fill > 0.0 ==>
              var fg := Box(seg.x, BarY, seg.x + seg.fillWidth, BarY + BarH);
              r[1] == RoundedRectangle(fg, Radius(look.corner, 5, fg), Some(seg.color), None, 1)
  {
    var bg := DrawRoundedRect(look.corner, Box(seg.x, BarY, seg.x + seg.width - 4, BarY + BarH), 5,
                              Some(Blend(look.blend, WHITE, 0.08)), None, 1);
    var fg := if seg.fill > 0.0 then
                DrawRoundedRect(look.corner, Box(seg.x, BarY, seg.x + seg.fillWidth, BarY + BarH), 5,
                                Some(seg.color), None, 1)
              else [];
    bg + fg
  }

  /** How many segments have started filling. */
  function Started(segs: seq<Segment>): (n: nat)
    ensures n <= |segs|
  {
    if |segs| == 0 then 0 else (if segs[0].fill > 0.0 then 1 else 0) + Started(segs[1..])
  }

  /** No segment has started exactly when the count is 0, and all have
      exactly when it is the number of segments. */
  lemma {:induction false} StartedCounts(segs: seq<Segment>)
    ensures Started(segs) == 0 <==> forall i :: 0 <= i < |segs| ==> segs[i].fill <= 0.0
    ensures Started(segs) == |segs| <==> forall i :: 0 <= i < |segs| ==> segs[i].fill > 0.0
    decreases |segs|
  {
    if |segs| > 0 {
      StartedCounts(segs[1..]);
      assert forall i :: 1 <= i < |segs| ==> segs[i] == segs[1..][i - 1];
    }
  }

  /** The segments' commands one after the other: a background for every
      segment and a fill for every started one. */
  function BarCommands(look: Look, segs: seq<Segment>): (r: seq<DrawCmd>)
    ensures forall i :: 0 <= i < |r| ==> r[i].RoundedRectangle?
    ensures |segs| <= |r| <= 2 * |segs|
    ensures |r| == |segs| + Started(segs)
  {
    if |segs| == 0 then [] else SegmentCommands(look, segs[0]) + BarCommands(look, segs[1..])
  }

  /** Segment `i`'s commands sit in the bar after one background for each
      earlier segment and one fill for each earlier started one. */
  lemma BarSegmentAt(look: Look, segs: seq<Segment>, i: int)
    requires 0 <= i < |segs|
    ensures var r := BarCommands(look, segs);
            var o := i + Started(segs[..i]);
            var c := SegmentCommands(look, segs[i]);
            o + |c| <= |r| && r[o..o + |c|] == c
  {
    var front, back := segs[..i], segs[i..];
    TakeDrop(segs, i);
    BarCommandsAppend(look, front, back);
    BarCommandsCons(look, back);
    SliceMiddle(BarCommands(look, front), SegmentCommands(look, segs[i]), BarCommands(look, back[1..]));
  }

  lemma TakeDrop(segs: seq<Segment>, i: int)
    requires 0 <= i < |segs|
    ensures segs == segs[..i] + segs[i..] && segs[i..][0] == segs[i]
  {
  }

  lemma SliceMiddle(a: seq<DrawCmd>, c: seq<DrawCmd>, b: seq<DrawCmd>)
    ensures |a| + |c| <= |a + (c + b)| && (a + (c + b))[|a|..|a| + |c|] == c
  {
  }

  /** The bar starts with its first segment's commands. */
  lemma BarCommandsCons(look: Look, segs: seq<Segment>)
    requires |segs| > 0
    ensures BarCommands(look, segs) == SegmentCommands(look, segs[0]) + BarCommands(look, segs[1..])
  {
  }

  /** The bar over two runs of segments is the first run's bar, then the second's. */
  lemma {:induction false} BarCommandsAppend(look: Look, a: seq<Segment>, b: seq<Segment>)
    ensures BarCommands(look, a + b) == BarCommands(look, a) + BarCommands(look, b)
    decreases |a|
  {
    if |a| > 0 {
      assert (a + b)[0] == a[0];
      assert (a + b)[1..] == a[1..] + b;
      BarCommandsCons(look, a + b);
      BarCommandsCons(look, a);
      BarCommandsAppend(look, a[1..], b);
    } else {
      assert a + b == b;
    }
  }

  /** No command of the list is a scene painter's call. */
  predicate NoPaint(cmds: seq<DrawCmd>)
  {
    forall i :: 0 <= i < |cmds| ==> !cmds[i].Paint?
  }

  /** Joining two lists without painter calls gives one without. */
  lemma NoPaintJoin(a: seq<DrawCmd>, b: seq<DrawCmd>)
    requires NoPaint(a) && NoPaint(b)
    ensures NoPaint(a + b)
  {
  }

  /** The active scene's label on the left and the `"{int(t)}s / {duration}s"`
      readout on the right, both in the label font, in grey, 30 px below the bar's top. */
  function BarLabels(look: Look, t: real, scene: Scene, duration: int, metrics: Metrics): (r: seq<DrawCmd>)
    ensures |r| == 2 && NoPaint(r)
    ensures r[0].Text? && r[0].content == Plain(scene.title) && r[0].x == BarPad
    ensures r[1].Text? && r[1].content == Readout(Trunc(t), duration)
    ensures r[1].x + metrics(look.labelFont, r[1].content).w == FrameWidth - BarPad
    ensures r[0].font == look.labelFont && r[1].font == look.labelFont && r[0].ink == GRAY && r[1].ink == GRAY
  {
    [LeftText(Plain(scene.title), BarPad, BarY + 30, look.labelFont, GRAY, metrics),
     RightText(Readout(Trunc(t), duration), FrameWidth - BarPad, BarY + 30, look.labelFont, GRAY, metrics)]
  }

  /** `draw_progress_bar`: the segments, then the active scene's label on the
      left and the `"{int(t)}s / {duration}s"` readout on the right. */
  function ProgressBar(look: Look, t: real, scenes: seq<Scene>, duration: int, metrics: Metrics): (r: Result<seq<DrawCmd>>)
    ensures r.Err? <==> LayoutBar(scenes, t, duration, BarPad).Err? || |scenes| == 0
    ensures r.Err? ==> r.fault == (if |scenes| == 0 then IndexError else ZeroDivision)
    ensures r.Ok? ==> |r.value| >= 2 && NoPaint(r.value)
    ensures r.Ok? ==> r.value[|r.value| - 2..] == BarLabels(look, t, SceneAt(scenes, t).value, duration, metrics)
    ensures r.Ok? ==> r.value == BarCommands(look, LayoutBar(scenes, t, duration, BarPad).value)
                                 + BarLabels(look, t, SceneAt(scenes, t).value, duration, metrics)
  {
    match LayoutBar(scenes, t, duration, BarPad)
    case Err(f) => Err(f)
    case Ok(segs) =>
      if |scenes| == 0 then Err(IndexError)
      else
        var scene := SceneAt(scenes, t).value;
        var bar := BarCommands(look, segs);
        var labels := BarLabels(look, t, scene, duration, metrics);
        NoPaintJoin(bar, labels);
        Ok(bar + labels)
  }

  /** At position `o` of `cmds`: a segment's dim background at `x`, `w - 4`
      px wide, followed, when its fill fraction `p` is positive, by its fill
      `FillWidth(w, p)` px wide in `color`. */
  predicate SegmentDrawnAt(look: Look, cmds: seq<DrawCmd>, o: int, x: int, w: int, p: real, color: Color)
  {
    && 0 <= o < |cmds| && cmds[o].RoundedRectangle?
    && cmds[o].box == Box(x, BarY, x + w - 4, BarY + BarH)
    && cmds[o].fill == Some(Blend(look.blend, WHITE, 0.08))
    && (p > 0.0 ==> && o + 1 < |cmds| && cmds[o + 1].RoundedRectangle?
                    && cmds[o + 1].box == Box(x, BarY, x + FillWidth(w, p), BarY + BarH)
                    && cmds[o + 1].fill == Some(color))
  }

  /** A segment's commands, found at `o`, draw that segment there. */
  lemma SegmentCommandsDrawn(look: Look, seg: Segment, cmds: seq<DrawCmd>, o: int)
    requires seg.fillWidth == FillWidth(seg.width, seg.fill)
    requires 0 <= o && o + |SegmentCommands(look, seg)| <= |cmds|
    requires cmds[o..o + |SegmentCommands(look, seg)|] == SegmentCommands(look, seg)
    ensures SegmentDrawnAt(look, cmds, o, seg.x, seg.width, seg.fill, seg.color)
  {
    var c := SegmentCommands(look, seg);
    assert cmds[o] == c[0];
    if seg.fill > 0.0 {
      assert cmds[o + 1] == c[1];
    }
  }

  lemma SliceBefore(a: seq<DrawCmd>, b: seq<DrawCmd>, o: int, n: int)
    requires 0 <= o && 0 <= n && o + n <= |a|
    ensures (a + b)[o..o + n] == a[o..o + n]
  {
  }

  /** Scene `i`'s part of the drawn bar: its dim background spans the
      scene's share of the bar starting where the earlier shares end, and its
      fill, in the scene's colour and `FillWidth` wide, is drawn exactly when
      the scene's fill fraction is positive, taking one more command. */
  lemma DrawnSegment(look: Look, t: real, scenes: seq<Scene>, duration: int, metrics: Metrics, i: int)
    requires ProgressBar(look, t, scenes, duration, metrics).Ok? && 0 <= i < |scenes|
    ensures var segs := LayoutBar(scenes, t, duration, BarPad).value;
            var p := SegmentFill(scenes[i], t).value;
            && SegmentDrawnAt(look, ProgressBar(look, t, scenes, duration, metrics).value,
                              i + Started(segs[..i]), BarPad + Sum(SegmentWidths(scenes, duration)[..i]),
                              SegmentWidth(scenes[i], duration), p, scenes[i].color)
            && (p > 0.0 <==> Started(segs[..i + 1]) == Started(segs[..i]) + 1)
  {
    var segs := LayoutBar(scenes, t, duration, BarPad).value;
    var labels := BarLabels(look, t, SceneAt(scenes, t).value, duration, metrics);
    ProgressBarSplit(look, t, scenes, duration, metrics);
    LayoutSegment(scenes, t, duration, BarPad, i);
    DrawnFromLayout(look, segs, labels, i);
    StartedStep(segs, i);
  }

  /** A drawn bar is the layout's segments followed by the labels. */
  lemma ProgressBarSplit(look: Look, t: real, scenes: seq<Scene>, duration: int, metrics: Metrics)
    requires ProgressBar(look, t, scenes, duration, metrics).Ok?
    ensures LayoutBar(scenes, t, duration, BarPad).Ok? && |scenes| > 0 && SceneAt(scenes, t).Ok?
    ensures ProgressBar(look, t, scenes, duration, metrics).value
            == BarCommands(look, LayoutBar(scenes, t, duration, BarPad).value)
               + BarLabels(look, t, SceneAt(scenes, t).value, duration, metrics)
  {
  }

  /** Segment `i` of a layout, field by field. */
  lemma LayoutSegment(scenes: seq<Scene>, t: real, duration: int, x: int, i: int)
    requires LayoutBar(scenes, t, duration, x).Ok? && 0 <= i < |scenes|
    ensures var seg := LayoutBar(scenes, t, duration, x).value[i];
            && seg.x == x + Sum(SegmentWidths(scenes, duration)[..i])
            && seg.width == SegmentWidth(scenes[i], duration)
            && Ok(seg.fill) == SegmentFill(scenes[i], t)
            && seg.fillWidth == FillWidth(seg.width, seg.fill)
            && seg.color == scenes[i].color
  {
  }

  lemma StartedStep(segs: seq<Segment>, i: int)
    requires 0 <= i < |segs|
    ensures Started(segs[..i + 1]) == Started(segs[..i]) + (if segs[i].fill > 0.0 then 1 else 0)
  {
    StartedSnoc(segs[..i + 1]);
    assert segs[..i + 1][..i] == segs[..i];
  }

  /** The bar drawn from a layout, followed by anything, draws segment `i` after
      the commands of the segments before it. */
  lemma DrawnFromLayout(look: Look, segs: seq<Segment>, labels: seq<DrawCmd>, i: int)
    requires 0 <= i < |segs| && segs[i].fillWidth == FillWidth(segs[i].width, segs[i].fill)
    ensures SegmentDrawnAt(look, BarCommands(look, segs) + labels, i + Started(segs[..i]),
                           segs[i].x, segs[i].width, segs[i].fill, segs[i].color)
  {
    var bar := BarCommands(look, segs);
    var o := i + Started(segs[..i]);
    BarSegmentAt(look, segs, i);
    SliceBefore(bar, labels, o, |SegmentCommands(look, segs[i])|);
    SegmentCommandsDrawn(look, segs[i], bar + labels, o);
  }

  /** Counting started segments one more at the end. */
  lemma {:induction false} StartedSnoc(segs: seq<Segment>)
    requires |segs| > 0
    ensures Started(segs) == Started(segs[..|segs| - 1]) + (if segs[|segs| - 1].fill > 0.0 then 1 else 0)
    decreases |segs|
  {
    if |segs| > 1 {
      StartedSnoc(segs[1..]);
      assert segs[1..][..|segs| - 2] == segs[..|segs| - 1][1..];
    }
  }

  /** When the scenes tile `[0, duration)`, the segment widths are the
      proportional shares of the bar rounded down: together they fill the bar
      short of at most one pixel per scene. */
  lemma BarWidthsFill(scenes: seq<Scene>, duration: int)
    requires duration > 0 && Tiles(SceneSpans(scenes), duration as real)
    ensures BarWidth - |scenes| < Sum(SegmentWidths(scenes, duration)) <= BarWidth
  {
    var spans := SceneSpans(scenes);
    TiledWindows(scenes, duration as real);
    WidthsBracket(scenes, duration);
    ChainedLength(spans);
    ScaleExact(scenes, duration);
    var e := ExactWidths(scenes, duration);
    WholeShare(e, SpanLength(spans), duration as real);
    RoundedTotal(Sum(SegmentWidths(scenes, duration)), e, |scenes|);
  }

  /** A total within `n` pixels below the whole bar, in whole pixels. */
  lemma RoundedTotal(w: int, e: real, n: nat)
    requires n > 0 && e == BarWidth as real
    requires e - n as real < w as real <= e
    ensures BarWidth - n < w <= BarWidth
  {
  }

  /** The whole timeline's share of the bar is the whole bar. */
  lemma WholeShare(e: real, len: real, d: real)
    requires d > 0.0 && len == d && e == len / d * BarWidth as real
    ensures e == BarWidth as real
  {
  }

  /** Shares of a common whole add up. */
  lemma ShareAdd(a: real, b: real, d: real)
    requires d > 0.0
    ensures a / d * BarWidth as real + b / d * BarWidth as real == (a + b) / d * BarWidth as real
  {
    assert a / d + b / d == (a + b) / d;
  }

  /** The exact (unrounded) share of the bar a scene deserves. */
  function ExactWidth(s: Scene, duration: int): real
    requires duration != 0
  {
    (s.end - s.start) / duration as real * BarWidth as real
  }

  function ExactWidths(scenes: seq<Scene>, duration: int): real
    requires duration != 0
  {
    if |scenes| == 0 then 0.0 else ExactWidth(scenes[0], duration) + ExactWidths(scenes[1..], duration)
  }

  /** Rounding each non-negative share down loses less than one pixel per scene. */
  lemma {:induction false} WidthsBracket(scenes: seq<Scene>, duration: int)
    requires duration > 0
    requires forall i :: 0 <= i < |scenes| ==> scenes[i].start <= scenes[i].end
    ensures ExactWidths(scenes, duration) - |scenes| as real < Sum(SegmentWidths(scenes, duration)) as real || |scenes| == 0
    ensures Sum(SegmentWidths(scenes, duration)) as real <= ExactWidths(scenes, duration)
    decreases |scenes|
  {
    if |scenes| > 0 {
      var ws := SegmentWidths(scenes, duration);
      assert ws[1..] == SegmentWidths(scenes[1..], duration);
      WidthsBracket(scenes[1..], duration);
      var e := ExactWidth(scenes[0], duration);
      assert e >= 0.0 by {
        RatioBounds(scenes[0].end - scenes[0].start, duration as real);
      }
      assert ws[0] as real <= e < ws[0] as real + 1.0;
    }
  }

  /** The total length of chained windows is the distance from the first start to the last end. */
  function SpanLength(spans: seq<Span>): real
  {
    if |spans| == 0 then 0.0 else (spans[0].end - spans[0].start) + SpanLength(spans[1..])
  }

  lemma {:induction false} ChainedLength(spans: seq<Span>)
    requires Chained(spans) && |spans| > 0
    ensures SpanLength(spans) == spans[|spans| - 1].end - spans[0].start
    decreases |spans|
  {
    if |spans| > 1 {
      ChainedLength(spans[1..]);
    }
  }

  /** Summing the exact shares is scaling the summed window lengths. */
  lemma {:induction false} ScaleExact(scenes: seq<Scene>, duration: int)
    requires duration > 0
    ensures ExactWidths(scenes, duration) == SpanLength(SceneSpans(scenes)) / duration as real * BarWidth as real
    decreases |scenes|
  {
    if |scenes| > 0 {
      ScaleExact(scenes[1..], duration);
      assert SceneSpans(scenes)[1..] == SceneSpans(scenes[1..]);
      var a := scenes[0].end - scenes[0].start;
      var b := SpanLength(SceneSpans(scenes[1..]));
      var d := duration as real;
      ShareAdd(a, b, d);
    }
  }

  // ---------------------------------------------------------------------
  // Caption

  /** The caption panel: `(tw + 50) x (th + 28)` at `(W//2 - pw//2, cy - ph//2)`. */
  function CaptionPanel(e: Extent): (b: Box)
    ensures b.x1 - b.x0 == e.w + 50 && b.y1 - b.y0 == e.h + 28
    ensures 0 <= (b.x1 - FrameWidth / 2) - (FrameWidth / 2 - b.x0) <= 1
    ensures 0 <= (b.y1 - CaptionY) - (CaptionY - b.y0) <= 1
  {
    var pw := e.w + 50;
    var ph := e.h + 28;
    var rx := FrameWidth / 2 - pw / 2;
    var ry := CaptionY - ph / 2;
    Box(rx, ry, rx + pw, ry + ph)
  }

  /** `draw_caption`: nothing without an active caption; otherwise the panel,
      then the caption text centred on it. */
  function CaptionCommands(look: Look, t: real, captions: seq<Caption>, metrics: Metrics): (r: seq<DrawCmd>)
    ensures CaptionAt(captions, t).None? <==> r == []
    ensures forall i :: 0 <= i < |r| ==> !r[i].Paint?
    ensures CaptionAt(captions, t).Some? ==>
              var c := CaptionAt(captions, t).value;
              var e := metrics(look.captionFont, Plain(c.text));
              && |r| == 2 && r[0].RoundedRectangle? && r[1].Text?
              && r[1].content == Plain(c.text) && r[1].ink == WHITE
              && r[0].box == CaptionPanel(e)
              && r[1].x - r[0].box.x0 == 25 && r[0].box.x1 - (r[1].x + e.w) == 25
              && r[1].y - r[0].box.y0 == 14 && r[0].box.y1 - (r[1].y + e.h) == 14
  {
    match CaptionAt(captions, t)
    case None => []
    case Some(c) =>
      var e := metrics(look.captionFont, Plain(c.text));
      DrawRoundedRect(look.corner, CaptionPanel(e), 14, Some(Blend(look.blend, BLACK, 0.75)), None, 1)
      + [CenteredText(Plain(c.text), FrameWidth / 2, CaptionY, look.captionFont, WHITE, metrics)]
  }

  /** The panel colour: 75% black over the background. */
  lemma CaptionPanelColor()
    ensures Rgba(BLACK, 0.75) == Color(3, 4, 5) && RgbaUnclamped(BLACK, 0.75) == Color(3, 4, 5)
  {
    assert 0.0 * 0.75 + 13.0 * (1.0 - 0.75) == 3.25;
    assert 0.0 * 0.75 + 17.0 * (1.0 - 0.75) == 4.25;
    assert 0.0 * 0.75 + 23.0 * (1.0 - 0.75) == 5.75;
  }

  // ---------------------------------------------------------------------
  // Frame

  /** The scene-content step: the registered painter's call, or nothing when
      none is registered (`dict.get`), or a `KeyError` (`dict[...]`). */
  function SceneContent(rule: DispatchRule, registry: map<int, Painter>, id: int, progress: real): (r: Result<seq<DrawCmd>>)
    ensures id in registry ==> r == Ok([Paint(registry[id], progress)])
    ensures id !in registry && rule == Lenient ==> r == Ok([])
    ensures id !in registry && rule == Strict ==> r == Err(KeyError)
  {
    if id in registry then Ok([Paint(registry[id], progress)])
    else match rule
      case Lenient => Ok([])
      case Strict => Err(KeyError)
  }

  /** The two overlays drawn over every frame, bar first and caption on top;
      neither depends on the scene painters. */
  function Overlays(look: Look, tl: Timeline, t: real, metrics: Metrics): (r: Result<seq<DrawCmd>>)
    ensures r.Err? <==> ProgressBar(look, t, tl.scenes, tl.duration, metrics).Err?
    ensures r.Ok? ==> NoPaint(r.value)
    ensures r.Ok? ==> var cap := CaptionCommands(look, t, tl.captions, metrics);
              |r.value| >= |cap| + 2 && r.value[|r.value| - |cap|..] == cap
    ensures r.Ok? ==> r.value == ProgressBar(look, t, tl.scenes, tl.duration, metrics).value
                                 + CaptionCommands(look, t, tl.captions, metrics)
  {
    var bar :- ProgressBar(look, t, tl.scenes, tl.duration, metrics);
    var cap := CaptionCommands(look, t, tl.captions, metrics);
    assert (bar + cap)[|bar|..] == cap;
    Ok(bar + cap)
  }

  /** `render_frame(t)`: resolve the scene and its progress, paint the scene,
      then draw the progress bar and then the caption. */
  function RenderFrame(style: Style, tl: Timeline, registry: map<int, Painter>, t: real, metrics: Metrics): (r: Result<seq<DrawCmd>>)
    ensures |tl.scenes| == 0 ==> r == Err(IndexError)
    ensures r.Ok? ==> SceneAt(tl.scenes, t).Ok? && Progress(SceneAt(tl.scenes, t).value, t).Ok?
                      && Overlays(style.look, tl, t, metrics).Ok?
  {
    var scene :- SceneAt(tl.scenes, t);
    var p :- Progress(scene, t);
    var content :- SceneContent(style.dispatch, registry, scene.id, p);
    var over :- Overlays(style.look, tl, t, metrics);
    Ok(content + over)
  }

  /** A frame is the painter's call for the active scene, if one is
      registered, and otherwise only overlays: a painter is called at most
      once, first, and with the clamped scene progress. */
  lemma RenderFramePaint(style: Style, tl: Timeline, registry: map<int, Painter>, t: real, metrics: Metrics)
    requires RenderFrame(style, tl, registry, t, metrics).Ok?
    ensures var r := RenderFrame(style, tl, registry, t, metrics).value;
            var s := SceneAt(tl.scenes, t).value;
            && (s.id in registry ==> |r| > 0 && r[0] == Paint(registry[s.id], Progress(s, t).value) && NoPaint(r[1..]))
            && (s.id !in registry ==> NoPaint(r))
  {
    var r := RenderFrame(style, tl, registry, t, metrics).value;
    var s := SceneAt(tl.scenes, t).value;
    var over := Overlays(style.look, tl, t, metrics).value;
    if s.id in registry {
      assert r[1..] == over;
    } else {
      assert r == over;
    }
  }

  /** A rendered frame is the scene content followed by the overlays. */
  lemma RenderFrameParts(style: Style, tl: Timeline, registry: map<int, Painter>, t: real, metrics: Metrics)
    requires RenderFrame(style, tl, registry, t, metrics).Ok?
    ensures var s := SceneAt(tl.scenes, t).value;
            var content := SceneContent(style.dispatch, registry, s.id, Progress(s, t).value);
            var over := Overlays(style.look, tl, t, metrics);
            && content.Ok? && over.Ok?
            && RenderFrame(style, tl, registry, t, metrics).value == content.value + over.value
  {
  }

  /** The caption is the last thing drawn on a frame. */
  lemma RenderFrameCaptionOnTop(style: Style, tl: Timeline, registry: map<int, Painter>, t: real, metrics: Metrics)
    requires RenderFrame(style, tl, registry, t, metrics).Ok?
    ensures var r := RenderFrame(style, tl, registry, t, metrics).value;
            var cap := CaptionCommands(style.look, t, tl.captions, metrics);
            |r| >= |cap| && r[|r| - |cap|..] == cap
  {
    RenderFrameParts(style, tl, registry, t, metrics);
    var s := SceneAt(tl.scenes, t).value;
    var content := SceneContent(style.dispatch, registry, s.id, Progress(s, t).value).value;
    var over := OverlaysEndWithCaption(style.look, tl, t, metrics);
    SuffixOfJoin(content, over, CaptionCommands(style.look, t, tl.captions, metrics));
  }

  /** The overlays end with the caption's commands. */
  lemma OverlaysEndWithCaption(look: Look, tl: Timeline, t: real, metrics: Metrics) returns (over: seq<DrawCmd>)
    requires Overlays(look, tl, t, metrics).Ok?
    ensures over == Overlays(look, tl, t, metrics).value
    ensures var cap := CaptionCommands(look, t, tl.captions, metrics);
            |over| >= |cap| && over[|over| - |cap|..] == cap
  {
    over := Overlays(look, tl, t, metrics).value;
  }

  /** A suffix of the second list is a suffix of the join. */
  lemma SuffixOfJoin(a: seq<DrawCmd>, b: seq<DrawCmd>, c: seq<DrawCmd>)
    requires |b| >= |c| && b[|b| - |c|..] == c
    ensures |a + b| >= |c| && (a + b)[|a + b| - |c|..] == c
  {
    assert (a + b)[|a + b| - |c|..] == b[|b| - |c|..];
  }

  /** Registering a painter for the active scene only adds its call in front
      of the frame; whether the frame renders does not change. */
  lemma MissingPainterIsBlank(tl: Timeline, registry: map<int, Painter>, t: real, metrics: Metrics, painter: Painter)
    requires SceneAt(tl.scenes, t).Ok? && SceneAt(tl.scenes, t).value.id !in registry
    ensures var id := SceneAt(tl.scenes, t).value.id;
            var with := RenderFrame(CoreStyle, tl, registry[id := painter], t, metrics);
            var without := RenderFrame(CoreStyle, tl, registry, t, metrics);
            && (with.Ok? <==> without.Ok?)
            && (with.Ok? ==> with.value == [Paint(painter, Progress(SceneAt(tl.scenes, t).value, t).value)] + without.value)
  {
  }

  /** Strict dispatch only differs from lenient dispatch by raising `KeyError`
      where the lenient one leaves the scene blank. */
  lemma DispatchRulesAgree(style: Style, tl: Timeline, registry: map<int, Painter>, t: real, metrics: Metrics)
    requires style.dispatch == Strict
    ensures var strict := RenderFrame(style, tl, registry, t, metrics);
            var lenient := RenderFrame(style.(dispatch := Lenient), tl, registry, t, metrics);
            && (strict.Ok? ==> strict == lenient)
            && (lenient.Ok? && strict != lenient ==> strict == Err(KeyError))
            && (strict == Err(KeyError) <==>
                  SceneAt(tl.scenes, t).Ok? && Progress(SceneAt(tl.scenes, t).value, t).Ok?
                  && SceneAt(tl.scenes, t).value.id !in registry)
  {
  }

  /** On a timeline whose scenes tile `[0, duration)`, every frame renders
      without raising, provided a strict dispatcher knows every scene id. */
  lemma TiledFramesRender(style: Style, tl: Timeline, registry: map<int, Painter>, t: real, metrics: Metrics)
    requires tl.duration > 0 && Tiles(SceneSpans(tl.scenes), tl.duration as real)
    requires style.dispatch == Strict ==> forall i :: 0 <= i < |tl.scenes| ==> tl.scenes[i].id in registry
    ensures RenderFrame(style, tl, registry, t, metrics).Ok?
  {
    TiledWindows(tl.scenes, tl.duration as real);
    TiledOverlays(style.look, tl, t, metrics);
    var k := ActiveSceneProgress(tl.scenes, t);
    assert style.dispatch == Strict ==> tl.scenes[k].id in registry;
    RenderFrameOk(style, tl, registry, t, metrics);
  }

  /** With non-empty windows, the looked-up scene is one of the scenes and its progress is defined. */
  lemma ActiveSceneProgress(scenes: seq<Scene>, t: real) returns (k: int)
    requires |scenes| > 0 && forall i :: 0 <= i < |scenes| ==> scenes[i].start < scenes[i].end
    ensures 0 <= k < |scenes| && SceneAt(scenes, t) == Ok(scenes[k]) && Progress(scenes[k], t).Ok?
  {
    SceneAtMember(scenes, t);
    k :| 0 <= k < |scenes| && SceneAt(scenes, t) == Ok(scenes[k]);
    assert scenes[k].start < scenes[k].end;
  }

  /** The windows of a tiling are non-empty. */
  lemma TiledWindows(scenes: seq<Scene>, duration: real)
    requires Tiles(SceneSpans(scenes), duration)
    ensures forall i :: 0 <= i < |scenes| ==> scenes[i].start < scenes[i].end
  {
    var spans := SceneSpans(scenes);
    forall i | 0 <= i < |scenes|
      ensures scenes[i].start < scenes[i].end
    {
      assert spans[i].start < spans[i].end;
    }
  }

  /** With non-empty windows no segment divides by zero, so the overlays draw. */
  lemma TiledOverlays(look: Look, tl: Timeline, t: real, metrics: Metrics)
    requires tl.duration > 0 && |tl.scenes| > 0
    requires forall i :: 0 <= i < |tl.scenes| ==> tl.scenes[i].start < tl.scenes[i].end
    ensures Overlays(look, tl, t, metrics).Ok?
  {
    assert forall i :: 0 <= i < |tl.scenes| ==> SegmentFill(tl.scenes[i], t).Ok?;
    assert LayoutBar(tl.scenes, t, tl.duration, BarPad).Ok?;
  }

  /** A frame renders once its scene, progress, content and overlays do. */
  lemma RenderFrameOk(style: Style, tl: Timeline, registry: map<int, Painter>, t: real, metrics: Metrics)
    requires SceneAt(tl.scenes, t).Ok? && Progress(SceneAt(tl.scenes, t).value, t).Ok?
    requires var s := SceneAt(tl.scenes, t).value;
             SceneContent(style.dispatch, registry, s.id, Progress(s, t).value).Ok?
    requires Overlays(style.look, tl, t, metrics).Ok?
    ensures RenderFrame(style, tl, registry, t, metrics).Ok?
  {
  }
}

=== FILE: drawing.dfy ===
/** The pixel helpers shared by every renderer (`core/drawing.py`), plus the
    variants the Video #5 script defines for itself.  Pillow is not modelled:
    a drawing call becomes a `DrawCmd` value, and the measured extent of a text
    is an opaque input (`Metrics`). */
module Drawing {
  import opened Basics

  const FrameWidth: int := 1080
  const FrameHeight: int := 1920

  datatype Color = Color(r: int, g: int, b: int)

  const BG := Color(13, 17, 23)
  const RED := Color(255, 59, 48)
  const GREEN := Color(0, 255, 136)
  const BLUE := Color(0, 122, 255)
  const YELLOW := Color(255, 214, 10)
  const WHITE := Color(240, 246, 252)
  const GRAY := Color(139, 148, 158)
  const BLACK := Color(0, 0, 0)

  predicate InGamut(c: Color)
  {
    0 <= c.r <= 255 && 0 <= c.g <= 255 && 0 <= c.b <= 255
  }

  datatype Family = Mono | Sans

  /** A font request: family, pixel size, bold face or not. */
  datatype Font = Font(family: Family, size: int, bold: bool)

  /** What a text command writes: a plain string, or the `"{elapsed}s / {total}s"`
      time readout of the progress bar (its formatting is not modelled). */
  datatype TextContent = Plain(s: string) | Readout(elapsed: int, total: int)

  /** Width and height of a text's bounding box, `bbox[2]-bbox[0]` and `bbox[3]-bbox[1]`. */
  datatype Extent = Extent(w: int, h: int)

  /** The font-metrics capability: Pillow's `getbbox`, taken as given. */
  type Metrics = (Font, TextContent) -> Extent

  /** `(x0, y0, x1, y1)`. */
  datatype Box = Box(x0: int, y0: int, x1: int, y1: int)

  /** One of the bespoke scene painters, which are not modelled. */
  datatype Painter = Painter(name: string)

  /** A drawing primitive issued against the frame. */
  datatype DrawCmd =
    | RoundedRectangle(box: Box, radius: int, fill: Option<Color>, outline: Option<Color>, width: int)
    | Text(x: int, y: int, content: TextContent, font: Font, ink: Color)
    | Paint(painter: Painter, progress: real)

  // ---------------------------------------------------------------------
  // Colour blending

  /** One blended channel: `int(c * alpha + b * (1 - alpha))`. */
  function BlendChannel(c: int, b: int, alpha: real): int
  {
    Trunc(c as real * alpha + b as real * (1.0 - alpha))
  }

  predicate Between(x: int, a: int, b: int)
  {
    Min(a, b) <= x <= Max(a, b)
  }

  /** For alpha in [0, 1] a blended channel lies between the two channels it mixes. */
  lemma BlendChannelBetween(c: int, b: int, alpha: real)
    requires 0.0 <= alpha <= 1.0
    ensures Between(BlendChannel(c, b, alpha), c, b)
  {
    var v := c as real * alpha + b as real * (1.0 - alpha);
    assert v == b as real + alpha * (c - b) as real;
    var d := (c - b) as real;
    if c >= b {
      MulNonneg(alpha, d);
      MulNonneg(1.0 - alpha, d);
    } else {
      MulNonneg(alpha, -d);
      MulNonneg(1.0 - alpha, -d);
    }
  }

  lemma MulNonneg(x: real, y: real)
    requires x >= 0.0 && y >= 0.0
    ensures x * y >= 0.0
  {
  }

  /** `rgba` of `core/drawing.py`: alpha is clamped into [0, 1], then the
      colour is blended over the background `BG`. */
  function Rgba(color: Color, alpha: real): (r: Color)
    ensures alpha >= 1.0 ==> r == color
    ensures alpha <= 0.0 ==> r == BG
    ensures Between(r.r, color.r, BG.r) && Between(r.g, color.g, BG.g) && Between(r.b, color.b, BG.b)
    ensures InGamut(color) ==> InGamut(r)
  {
    var a := ClampUnit(alpha);
    BlendChannelBetween(color.r, BG.r, a);
    BlendChannelBetween(color.g, BG.g, a);
    BlendChannelBetween(color.b, BG.b, a);
    Color(BlendChannel(color.r, BG.r, a), BlendChannel(color.g, BG.g, a), BlendChannel(color.b, BG.b, a))
  }

  /** `rgba` of the Video #5 script: the same blend, without the clamp. */
  function RgbaUnclamped(color: Color, alpha: real): (r: Color)
    ensures alpha == 0.0 ==> r == BG
    ensures alpha == 1.0 ==> r == color
  {
    Color(BlendChannel(color.r, BG.r, alpha), BlendChannel(color.g, BG.g, alpha), BlendChannel(color.b, BG.b, alpha))
  }

  /** On [0, 1] the two blends agree. */
  lemma RgbaVariantsAgree(color: Color, alpha: real)
    requires 0.0 <= alpha <= 1.0
    ensures RgbaUnclamped(color, alpha) == Rgba(color, alpha)
  {
  }

  /** Outside [0, 1] the unclamped blend leaves the 0..255 range: alpha 2 on
      WHITE gives a red channel of 2*240 - 13 = 467. */
  lemma RgbaUnclampedOvershoots()
    ensures RgbaUnclamped(WHITE, 2.0).r == 467
    ensures !InGamut(RgbaUnclamped(WHITE, 2.0)) && Rgba(WHITE, 2.0) == WHITE
  {
    assert WHITE.r as real * 2.0 + BG.r as real * (1.0 - 2.0) == 467.0;
  }

  /** Which blend a renderer uses. */
  datatype BlendRule = Clamped | Unclamped

  function Blend(rule: BlendRule, color: Color, alpha: real): Color
  {
    match rule
    case Clamped => Rgba(color, alpha)
    case Unclamped => RgbaUnclamped(color, alpha)
  }

  // ---------------------------------------------------------------------
  // Rounded rectangles

  /** The corner radius `draw_rounded_rect` hands to Pillow in `core/drawing.py`:
      `max(0, min(radius, (x1-x0)//2, (y1-y0)//2))`. */
  function CornerRadius(radius: int, box: Box): (r: int)
    ensures r >= 0
    ensures box.x1 - box.x0 >= 0 ==> r <= (box.x1 - box.x0) / 2
    ensures box.y1 - box.y0 >= 0 ==> r <= (box.y1 - box.y0) / 2
    ensures r <= Max(radius, 0)
    ensures 0 <= radius <= (box.x1 - box.x0) / 2 && radius <= (box.y1 - box.y0) / 2 ==> r == radius
  {
    Max(0, Min(radius, Min((box.x1 - box.x0) / 2, (box.y1 - box.y0) / 2)))
  }

  /** The Video #5 script's radius: the same minimum, without the floor at 0. */
  function CornerRadiusUnfloored(radius: int, box: Box): (r: int)
    ensures r <= radius && r <= (box.x1 - box.x0) / 2 && r <= (box.y1 - box.y0) / 2
    ensures r == radius || r == (box.x1 - box.x0) / 2 || r == (box.y1 - box.y0) / 2
  {
    Min(radius, Min((box.x1 - box.x0) / 2, (box.y1 - box.y0) / 2))
  }

  /** The two radius rules agree unless the minimum is negative, which happens
      for a box less than two pixels wide: then only the core one stays at 0. */
  lemma CornerRadiusVariants(radius: int, box: Box)
    ensures CornerRadiusUnfloored(radius, box) >= 0 ==> CornerRadius(radius, box) == CornerRadiusUnfloored(radius, box)
    ensures CornerRadiusUnfloored(radius, box) < 0 ==> CornerRadius(radius, box) == 0
    ensures radius >= 0 && box.y1 - box.y0 >= 0 && box.x1 - box.x0 < 0 ==> CornerRadiusUnfloored(radius, box) < 0
  {
  }

  /** Which radius rule a renderer uses. */
  datatype CornerRule = Floored | Unfloored

  function Radius(rule: CornerRule, radius: int, box: Box): int
  {
    match rule
    case Floored => CornerRadius(radius, box)
    case Unfloored => CornerRadiusUnfloored(radius, box)
  }

  /** `draw_rounded_rect`: with a fill, one filled shape (carrying the outline
      too, if any); with only an outline, one outlined shape; with neither,
      nothing. */
  function DrawRoundedRect(rule: CornerRule, box: Box, radius: int, fill: Option<Color>,
                           outline: Option<Color>, width: int): (r: seq<DrawCmd>)
    ensures fill.None? && outline.None? <==> r == []
    ensures |r| <= 1
    ensures |r| == 1 ==> r[0].RoundedRectangle? && r[0].box == box
                         && r[0].radius == Radius(rule, radius, box) && r[0].width == width
    ensures |r| == 1 ==> r[0].fill == fill && r[0].outline == outline
  {
    var rr := Radius(rule, radius, box);
    if fill.Some? then [RoundedRectangle(box, rr, fill, outline, width)]
    else if outline.Some? then [RoundedRectangle(box, rr, None, outline, width)]
    else []
  }

  // ---------------------------------------------------------------------
  // Text anchoring

  /** `centered_text`: the text's box is centred on `(cx, cy)`, with any odd
      pixel falling on the right / bottom side. */
  function CenteredText(content: TextContent, cx: int, cy: int, font: Font, ink: Color,
                        metrics: Metrics): (r: DrawCmd)
    ensures r.Text? && r.content == content && r.font == font && r.ink == ink
    ensures var e := metrics(font, content);
            && 0 <= (r.x + e.w - cx) - (cx - r.x) <= 1
            && 0 <= (r.y + e.h - cy) - (cy - r.y) <= 1
  {
    var e := metrics(font, content);
    Text(cx - e.w / 2, cy - e.h / 2, content, font, ink)
  }

  /** `left_text`: the box starts at `x` and is centred vertically on `cy`. */
  function LeftText(content: TextContent, x: int, cy: int, font: Font, ink: Color,
                    metrics: Metrics): (r: DrawCmd)
    ensures r.Text? && r.content == content && r.font == font && r.ink == ink
    ensures r.x == x
    ensures var e := metrics(font, content); 0 <= (r.y + e.h - cy) - (cy - r.y) <= 1
  {
    var e := metrics(font, content);
    Text(x, cy - e.h / 2, content, font, ink)
  }

  /** `right_text`: the box ends exactly at `x` and is centred vertically on `cy`. */
  function RightText(content: TextContent, x: int, cy: int, font: Font, ink: Color,
                     metrics: Metrics): (r: DrawCmd)
    ensures r.Text? && r.content == content && r.font == font && r.ink == ink
    ensures var e := metrics(font, content);
            && r.x + e.w == x
            && 0 <= (r.y + e.h - cy) - (cy - r.y) <= 1
  {
    var e := metrics(font, content);
    Text(x - e.w, cy - e.h / 2, content, font, ink)
  }
}

=== FILE: encoder.dfy ===
/** `core/renderer.py`: rendering every frame of a timeline into the encoder's
    pipe, and checking the encoded file's first stream.  The encoder and the
    probe are external programs: their exit statuses and the probe's report
    are inputs, and a frame is the list of drawing commands that makes it. */
module Encoder {
  import opened Basics
  import opened Drawing
  import opened Timeline
  import opened Compositor

  /** `total_frames = duration * fps`. */
  function TotalFrames(duration: int, fps: int): (n: int)
    ensures fps > 0 ==> (n > 0 <==> duration > 0)
  {
    duration * fps
  }

  /** `t = frame_num / fps`. */
  function FrameTime(k: nat, fps: int): (t: real)
    requires fps != 0
    ensures t * fps as real == k as real
    ensures fps > 0 ==> t >= 0.0
  {
    k as real / fps as real
  }

  /** Frame times start at 0, step by `1/fps`, and every frame of the range
      falls inside `[0, duration)`. */
  lemma FrameTimesInRange(duration: int, fps: int, k: nat)
    requires fps > 0
    ensures FrameTime(0, fps) == 0.0
    ensures FrameTime(k + 1, fps) - FrameTime(k, fps) == 1.0 / fps as real
    ensures k < TotalFrames(duration, fps) <==> FrameTime(k, fps) < duration as real
  {
    var f := fps as real;
    assert FrameTime(k, fps) * f == k as real;
    if k < duration * fps {
      assert (k as real) < duration as real * f;
      DivBelow(k as real, duration as real, f);
    } else {
      assert (k as real) >= duration as real * f;
      DivAtLeast(k as real, duration as real, f);
    }
  }

  lemma DivBelow(a: real, d: real, f: real)
    requires f > 0.0 && a < d * f
    ensures a / f < d
  {
    assert (a / f) * f == a;
    if a / f >= d {
      MulMonotone(d, a / f, f);
    }
  }

  lemma DivAtLeast(a: real, d: real, f: real)
    requires f > 0.0 && a >= d * f
    ensures a / f >= d
  {
    assert (a / f) * f == a;
    if a / f < d {
      MulMonotone(a / f, d, f);
    }
  }

  lemma MulMonotone(x: real, y: real, f: real)
    requires f > 0.0 && x <= y
    ensures x * f <= y * f
  {
    assert y * f - x * f == (y - x) * f;
  }

  /** The readout's `int(t)` is the number of whole seconds elapsed: the
      frame number divided by the frame rate, rounded down. */
  lemma ReadoutSeconds(k: nat, fps: int)
    requires fps > 0
    ensures Trunc(FrameTime(k, fps)) == k / fps
  {
    var q, m := k / fps, k % fps;
    assert k == q * fps + m && 0 <= m < fps;
    var f := fps as real;
    assert FrameTime(k, fps) == q as real + m as real / f;
    assert 0.0 <= m as real / f < 1.0 by {
      RatioBounds(m as real, f);
    }
  }

  /** `make_render_frame(...)`: the closure the frame loop calls, one time at a time. */
  function FrameRenderer(style: Style, tl: Timeline, registry: map<int, Painter>, metrics: Metrics): (render: real -> Result<seq<DrawCmd>>)
    ensures forall t :: render(t) == RenderFrame(style, tl, registry, t, metrics)
    ensures && tl.duration > 0 && Tiles(SceneSpans(tl.scenes), tl.duration as real)
            && (style.dispatch == Strict ==> forall i :: 0 <= i < |tl.scenes| ==> tl.scenes[i].id in registry)
            ==> forall t :: render(t).Ok?
  {
    assert && tl.duration > 0 && Tiles(SceneSpans(tl.scenes), tl.duration as real)
           && (style.dispatch == Strict ==> forall i :: 0 <= i < |tl.scenes| ==> tl.scenes[i].id in registry)
           ==> forall t :: RenderFrame(style, tl, registry, t, metrics).Ok? by {
      if && tl.duration > 0 && Tiles(SceneSpans(tl.scenes), tl.duration as real)
         && (style.dispatch == Strict ==> forall i :: 0 <= i < |tl.scenes| ==> tl.scenes[i].id in registry) {
        forall t ensures RenderFrame(style, tl, registry, t, metrics).Ok? {
          TiledFramesRender(style, tl, registry, t, metrics);
        }
      }
    }
    t => RenderFrame(style, tl, registry, t, metrics)
  }

  /** The frame loop of `render_to_mp4` (and of the Video #5 script's `main`):
      call `render` at frame after frame into the pipe, noting every `fps`-th
      frame when `verbose`, then report whether the encoder, which exits with
      `encoderStatus`, succeeded.  An exception in a frame stops the loop. */
  method EncodeFrames(render: real -> Result<seq<DrawCmd>>, duration: int, fps: int, verbose: bool, encoderStatus: int)
    returns (frames: seq<seq<DrawCmd>>, notices: seq<nat>, outcome: Result<bool>)
    ensures outcome.Ok? ==> |frames| == Max(0, TotalFrames(duration, fps))
    ensures outcome.Ok? && |frames| > 0 ==>
              (fps != 0 && forall k :: 0 <= k < |frames| ==> render(FrameTime(k, fps)) == Ok(frames[k]))
    ensures outcome.Ok? ==> (outcome.value <==> encoderStatus == 0)
    ensures outcome.Err? ==>
              (&& TotalFrames(duration, fps) > 0 && fps != 0
               && exists k :: && 0 <= k < TotalFrames(duration, fps)
                              && render(FrameTime(k, fps)) == outcome.PropagateFailure()
                              && forall j :: 0 <= j < k ==> render(FrameTime(j, fps)).Ok?)
    ensures forall a, b :: 0 <= a < b < |notices| ==> notices[a] < notices[b]
    ensures outcome.Ok? ==> forall k: nat :: k in notices <==> verbose && k < |frames| && k % fps == 0
  {
    var total := TotalFrames(duration, fps);
    frames := [];
    notices := [];
    var k: nat := 0;
    while k < total
      invariant k <= Max(0, total) && |frames| == k
      invariant k > 0 ==> fps != 0
      invariant forall j :: 0 <= j < k ==> render(FrameTime(j, fps)) == Ok(frames[j])
      invariant forall a :: 0 <= a < |notices| ==> notices[a] < k
      invariant forall a, b :: 0 <= a < b < |notices| ==> notices[a] < notices[b]
      invariant forall j: nat :: j in notices <==> verbose && j < k && j % fps == 0
    {
      assert fps != 0;
      var r := render(FrameTime(k, fps));
      if r.Err? {
        outcome := r.PropagateFailure();
        return;
      }
      frames := frames + [r.value];
      if verbose && k % fps == 0 {
        notices := notices + [k];
      }
      k := k + 1;
    }
    outcome := Ok(encoderStatus == 0);
  }

  /** `render_to_mp4`: the frame loop over the shared compositor of
      `core/scene_base.py`.  On a timeline whose scenes tile it, every frame
      renders, so the outcome is the encoder's. */
  method RenderToMp4(tl: Timeline, registry: map<int, Painter>, fps: int, verbose: bool,
                     encoderStatus: int, metrics: Metrics)
    returns (frames: seq<seq<DrawCmd>>, outcome: Result<bool>)
    ensures outcome.Ok? ==> |frames| == Max(0, TotalFrames(tl.duration, fps))
    ensures outcome.Ok? && |frames| > 0 ==>
              (fps != 0 && forall k :: 0 <= k < |frames| ==>
                 RenderFrame(CoreStyle, tl, registry, FrameTime(k, fps), metrics) == Ok(frames[k]))
    ensures outcome.Ok? ==> (outcome.value <==> encoderStatus == 0)
    ensures tl.duration > 0 && fps > 0 && Tiles(SceneSpans(tl.scenes), tl.duration as real) ==> outcome.Ok?
  {
    var render := FrameRenderer(CoreStyle, tl, registry, metrics);
    var notices;
    frames, notices, outcome := EncodeFrames(render, tl.duration, fps, verbose, encoderStatus);
  }

  // ---------------------------------------------------------------------
  // Output validation

  /** The fields `validate_output` reads from the probe's first stream; a
      field the probe leaves out is `None`. */
  datatype Stream = Stream(codec: Option<string>, profile: Option<string>, width: Option<int>, height: Option<int>,
                           rate: Option<string>, pixFmt: Option<string>, frames: Option<string>)

  /** The probe run: its exit status and its parsed report, whose `streams`
      key may be missing. */
  datatype Probe = Probe(status: int, streams: Option<seq<Stream>>)

  /** The returned `info` dict: the probe's error, or the stream's fields. */
  datatype Info = ProbeError(message: string) | StreamInfo(stream: Stream)

  datatype Validation = Validation(valid: bool, info: Info)

  /** `f"{fps}/1"`. */
  function ExpectedRate(fps: int): string
  {
    IntToString(fps) + "/1"
  }

  /** The expected stream: H.264, 1080x1920, `fps/1`, yuv420p and
      `duration * fps` frames. */
  predicate StreamMatches(s: Stream, duration: int, fps: int)
  {
    && s.codec == Some("h264")
    && s.width == Some(FrameWidth)
    && s.height == Some(FrameHeight)
    && s.rate == Some(ExpectedRate(fps))
    && s.pixFmt == Some("yuv420p")
    && s.frames == Some(IntToString(duration * fps))
  }

  /** `validate_output`: a failed probe is reported, not raised; a report
      without `streams` raises `KeyError`, one with no streams `IndexError`. */
  function ValidateOutput(probe: Probe, duration: int, fps: int): (r: Result<Validation>)
    ensures probe.status != 0 ==> r == Ok(Validation(false, ProbeError("FFprobe failed")))
    ensures probe.status == 0 && probe.streams.None? ==> r == Err(KeyError)
    ensures probe.status == 0 && probe.streams == Some([]) ==> r == Err(IndexError)
    ensures r.Ok? && r.value.info.StreamInfo? ==>
              && probe.streams.Some? && |probe.streams.value| > 0
              && r.value.info.stream == probe.streams.value[0]
              && (r.value.valid <==> StreamMatches(probe.streams.value[0], duration, fps))
    ensures probe.status == 0 && probe.streams.Some? && |probe.streams.value| > 0 ==>
              var s := probe.streams.value[0];
              r == Ok(Validation(StreamMatches(s, duration, fps), StreamInfo(s)))
  {
    if probe.status != 0 then Ok(Validation(false, ProbeError("FFprobe failed")))
    else match probe.streams
      case None => Err(KeyError)
      case Some(streams) =>
        if |streams| == 0 then Err(IndexError)
        else
          var s := streams[0];
          var valid := s.codec == Some("h264") && s.width == Some(1080) && s.height == Some(1920)
                       && s.rate == Some(ExpectedRate(fps)) && s.pixFmt == Some("yuv420p")
                       && s.frames == Some(IntToString(duration * fps));
          Ok(Validation(valid, StreamInfo(s)))
  }

  /** A stream that passes reports exactly the expected frame count and rate:
      the strings it carries read back as `duration * fps` and `fps`. */
  lemma ValidStreamCounts(probe: Probe, duration: int, fps: int)
    requires ValidateOutput(probe, duration, fps).Ok? && ValidateOutput(probe, duration, fps).value.valid
    ensures var s := probe.streams.value[0];
            && ParseInt(s.frames.value) == duration * fps
            && ParseInt(s.rate.value[..|s.rate.value| - 2]) == fps
  {
    var s := probe.streams.value[0];
    IntToStringRoundTrip(duration * fps);
    assert s.rate.value[..|s.rate.value| - 2] == IntToString(fps);
    IntToStringRoundTrip(fps);
  }

  /** When the probe reports the number of frames the encoder was fed, the
      frame check passes exactly for a complete render: the piped count is
      `duration * fps`. */
  lemma PipedCountValidates(s: Stream, duration: int, fps: int, piped: nat)
    requires s.frames == Some(IntToString(piped))
    requires && s.codec == Some("h264") && s.width == Some(FrameWidth) && s.height == Some(FrameHeight)
             && s.rate == Some(ExpectedRate(fps)) && s.pixFmt == Some("yuv420p")
    ensures ValidateOutput(Probe(0, Some([s])), duration, fps).value.valid <==> piped == duration * fps
  {
    IntToStringInjective(piped, duration * fps);
  }
}

=== FILE: narration.dfy ===
/** `generate_narration` of `core/tts.py`: per-scene speech targets, the
    synthesis and stretching loop, and the filter graph that places every
    scene's clip at its start time.  The engines, the WAV files and the encoder
    runs are inputs: the length of each synthesised take and the exit status
    of each external run. */
module Narration {
  import opened Basics
  import opened Text
  import opened Drawing
  import opened Timeline
  import opened Tempo
  import opened Backends

  /** How long a scene's speech should last: 0.3 s of padding on each side,
      or only 0.2 s in all when that would leave less than a second. */
  function TargetSpeechDuration(s: Scene): (d: real)
    ensures var len := s.end - s.start;
            && (len - 0.6 >= 1.0 ==> d == len - 0.6)
            && (len - 0.6 < 1.0 ==> d == len - 0.2)
            && d <= len - 0.2
  {
    var len := s.end - s.start;
    var target := len - 0.6;
    if target < 1.0 then len - 0.2 else target
  }

  /** `int((start + 0.3) * 1000)`: the clip's offset in milliseconds. */
  function DelayMs(s: Scene): (ms: int)
    ensures var exact := (s.start + 0.3) * 1000.0;
            exact >= 0.0 ==> 0 <= ms && ms as real <= exact < ms as real + 1.0
  {
    Trunc((s.start + 0.3) * 1000.0)
  }

  /** Where the clip starts, in seconds, once the offset is rounded to whole milliseconds. */
  function SpeechStart(s: Scene): (t: real)
    ensures t * 1000.0 == DelayMs(s) as real
  {
    DelayMs(s) as real / 1000.0
  }

  /** For a scene starting at or after 0, the clip starts 0.3 s into the
      scene, less under a millisecond of truncation. */
  lemma SpeechStartBounds(s: Scene)
    requires s.start >= 0.0
    ensures s.start + 0.299 < SpeechStart(s) <= s.start + 0.3
  {
    var x := (s.start + 0.3) * 1000.0;
    assert DelayMs(s) as real <= x < DelayMs(s) as real + 1.0;
  }

  /** A scene's speech, stretched to its target, ends 0.3 s before the
      scene does; in a scene shorter than 1.6 s it ends 0.1 s after it. */
  lemma SpeechEnd(s: Scene)
    requires s.start >= 0.0
    ensures var end := SpeechStart(s) + TargetSpeechDuration(s);
            && (s.end - s.start >= 1.6 ==> end <= s.end - 0.3)
            && (s.end - s.start < 1.6 ==> s.end + 0.099 < end <= s.end + 0.1)
  {
    SpeechStartBounds(s);
  }

  /** A 7 s scene, such as 5-12 s, leaves 6.4 s for speech. */
  lemma SevenSecondTarget()
    ensures TargetSpeechDuration(Scene(2, 5.0, 12.0, "PROMISE LOCK", BLUE, "")) == 6.4
  {
  }

  /** A scene of 0 to 1 s: its speech target is 0.8 s from a 300 ms offset,
      so it ends at 1.1 s, past the scene's end. */
  lemma ShortSceneOverruns()
    ensures var s := Scene(1, 0.0, 1.0, "", RED, "");
            && TargetSpeechDuration(s) == 0.8 && DelayMs(s) == 300
            && SpeechStart(s) + TargetSpeechDuration(s) == 1.1
  {
  }

  /** Even so, on a chained timeline starting at or after 0 no two scenes'
      stretched speech overlaps: the overrun is shorter than the next scene's
      leading padding. */
  lemma SpeechNeverOverlaps(scenes: seq<Scene>, i: nat)
    requires Chained(SceneSpans(scenes)) && i + 1 < |scenes| && scenes[i].start >= 0.0
    ensures SpeechStart(scenes[i]) + TargetSpeechDuration(scenes[i]) < SpeechStart(scenes[i + 1])
  {
    var spans := SceneSpans(scenes);
    assert spans[i].end == spans[i + 1].start && spans[i].start < spans[i].end;
    SpeechEnd(scenes[i]);
    SpeechStartBounds(scenes[i + 1]);
  }

  /** A clip the stretch run succeeded on lasts `take / Product(stages)`
      seconds, which is its scene's target; so on a chained timeline starting
      at or after 0 it ends before the next scene's clip starts. */
  lemma StretchedClipNeverOverlaps(scenes: seq<Scene>, i: nat, clip: Audio, take: real, status: int)
    requires Chained(SceneSpans(scenes)) && i + 1 < |scenes| && scenes[i].start >= 0.0
    requires ClipFits(clip, take, TargetSpeechDuration(scenes[i]), status) && clip.Stretched?
    ensures Product(clip.stages) > 0.0
    ensures SpeechStart(scenes[i]) + take / Product(clip.stages) < SpeechStart(scenes[i + 1])
  {
    var p, target := Product(clip.stages), TargetSpeechDuration(scenes[i]);
    PositiveFactor(p, target, take);
    SpeechNeverOverlaps(scenes, i);
  }

  lemma PositiveFactor(p: real, target: real, take: real)
    requires p * target == take && take > 0.0 && target > 0.0
    ensures p > 0.0 && take / p == target
  {
  }

  /** A clip the stretch run failed on keeps its take's length: a 10 s take
      for the 0-7 s scene is still playing when the 7-14 s scene's clip starts. */
  lemma CopiedClipOverlaps()
    ensures var a := Scene(1, 0.0, 7.0, "", RED, "");
            var b := Scene(2, 7.0, 14.0, "", BLUE, "");
            && Chained(SceneSpans([a, b]))
            && ClipFits(Copied, 10.0, TargetSpeechDuration(a), 1)
            && SpeechStart(b) < SpeechStart(a) + 10.0
  {
    var a := Scene(1, 0.0, 7.0, "", RED, "");
    var b := Scene(2, 7.0, 14.0, "", BLUE, "");
    assert SceneSpans([a, b]) == [Span(0.0, 7.0), Span(7.0, 14.0)];
    assert DelayMs(a) == 300 && DelayMs(b) == 7300;
  }

  // ---------------------------------------------------------------------
  // The mix graph

  /** The label `[s{i}]` of scene `i`'s delayed clip. */
  function Label(i: nat): (r: string)
    ensures |r| >= 4 && r[0] == '[' && r[1] == 's' && r[|r| - 1] == ']'
  {
    "[s" + NatToString(i) + "]"
  }

  /** Distinct scenes get distinct labels, so every delayed clip reaches the mix once. */
  lemma LabelsDistinct(i: nat, j: nat)
    ensures Label(i) == Label(j) <==> i == j
  {
    if Label(i) == Label(j) {
      assert NatToString(i) == Label(i)[2..|Label(i)| - 1];
      assert NatToString(j) == Label(j)[2..|Label(j)| - 1];
      NatToStringInjective(i, j);
    }
  }

  /** One `[i]adelay=D|D,apad=whole_dur=duration[s{i}]` chain. */
  datatype DelayChain = DelayChain(input: nat, delayMs: int, wholeDur: int, output: string)

  /** The parts of the mix run the model keeps: the delay chains, the `amix`
      inputs with `inputs=n` and `volume=n`, and the `-t` cut. */
  datatype MixGraph = MixGraph(chains: seq<DelayChain>, mixIn: seq<string>, inputs: nat, volume: nat, cut: int)

  function BuildMix(scenes: seq<Scene>, duration: int): (g: MixGraph)
    ensures |g.chains| == |g.mixIn| == g.inputs == g.volume == |scenes|
    ensures g.cut == duration
    ensures forall i :: 0 <= i < |scenes| ==>
              && g.chains[i].input == i
              && g.chains[i].delayMs == DelayMs(scenes[i])
              && g.chains[i].wholeDur == duration
              && g.mixIn[i] == g.chains[i].output
  {
    var n := |scenes|;
    MixGraph(seq(n, i requires 0 <= i < n => DelayChain(i, DelayMs(scenes[i]), duration, Label(i))),
             seq(n, i requires 0 <= i < n => Label(i)), n, n, duration)
  }

  /** Each delayed clip is mixed in exactly once: the mix inputs are the chain
      outputs in order, and no two of them coincide. */
  lemma MixInputsDistinct(scenes: seq<Scene>, duration: int, i: nat, j: nat)
    requires i < |scenes| && j < |scenes|
    ensures var g := BuildMix(scenes, duration);
            g.mixIn[i] == g.mixIn[j] <==> i == j
  {
    LabelsDistinct(i, j);
  }

  /** A scene that starts no earlier is delayed at least as much. */
  lemma DelaysOrdered(a: Scene, b: Scene)
    requires a.start <= b.start
    ensures DelayMs(a) <= DelayMs(b)
  {
    var x := (a.start + 0.3) * 1000.0;
    var y := (b.start + 0.3) * 1000.0;
    assert x <= y;
  }

  // ---------------------------------------------------------------------
  // The pipeline

  /** A successful narration run: the backend used, each scene's engine
      request and stretched clip, the clip the mix reads for each scene, and
      the mix that aligns them. */
  datatype Narration = Narration(backend: string, requests: seq<SynthRequest>, clips: seq<Audio>,
                                 heard: seq<Audio>, graph: MixGraph)

  /** The backend `generate_narration` runs with: the forced name, or the
      detected one. */
  function ChooseBackend(forced: Option<string>, env: Env): (r: Result<string>)
    ensures forced.Some? ==> r == Ok(forced.value)
    ensures forced.None? ==> (r == Err(NoBackendAvailable) <==> DetectBackend(env).None?)
    ensures forced.None? && r.Ok? ==> ParseBackend(r.value) == DetectBackend(env)
  {
    match forced
    case Some(name) => Ok(name)
    case None =>
      match DetectBackend(env)
      case None => Err(NoBackendAvailable)
      case Some(b) =>
        NameRoundTrip(b, b);
        Ok(b.Name())
  }

  /** A clip is what `_time_stretch` makes of a take of `take` seconds for a
      target of `target` seconds, whose stretch run exits with `status`. */
  predicate ClipFits(clip: Audio, take: real, target: real, status: int)
  {
    && (clip.Stretched? <==> take > 0.0 && target > 0.0 && status == 0)
    && (clip.Stretched? ==> Product(clip.stages) * target == take)
  }

  /** The last scene before `hi` whose id is `id`. */
  function LastWithId(scenes: seq<Scene>, id: int, hi: nat): (r: Option<nat>)
    requires hi <= |scenes|
    ensures r.None? <==> forall k :: 0 <= k < hi ==> scenes[k].id != id
    ensures r.Some? ==> && r.value < hi && scenes[r.value].id == id
                        && forall k :: r.value < k < hi ==> scenes[k].id != id
  {
    if hi == 0 then None
    else if scenes[hi - 1].id == id then Some(hi - 1)
    else LastWithId(scenes, id, hi - 1)
  }

  /** The clip the mix reads for each scene.  Every scene's stretched clip is
      written to `stretched_{id}.wav`, so by the time of the mix that file
      holds the clip of the last scene with the id: a scene whose id no later
      scene reuses is heard as itself, and scenes sharing an id are heard alike. */
  function HeardClips(scenes: seq<Scene>, clips: seq<Audio>): (r: seq<Audio>)
    requires |clips| == |scenes|
    ensures |r| == |scenes|
    ensures forall i :: 0 <= i < |scenes| && (forall k :: i < k < |scenes| ==> scenes[k].id != scenes[i].id)
              ==> r[i] == clips[i]
    ensures forall i, j :: 0 <= i < j < |scenes| && scenes[i].id == scenes[j].id ==> r[i] == r[j]
  {
    seq(|scenes|, i requires 0 <= i < |scenes| => clips[LastWithId(scenes, scenes[i].id, |scenes|).value])
  }

  /** With distinct ids the mix hears every scene's own clip. */
  lemma DistinctIdsHeardAsSynthesised(scenes: seq<Scene>, clips: seq<Audio>)
    requires |clips| == |scenes|
    requires forall i, j :: 0 <= i < j < |scenes| ==> scenes[i].id != scenes[j].id
    ensures HeardClips(scenes, clips) == clips
  {
  }

  /** Two scenes with the same id: the second clip overwrites the first, which
      the mix never hears. */
  lemma SharedIdLosesClip()
    ensures var scenes := [Scene(3, 0.0, 7.0, "", RED, ""), Scene(3, 7.0, 14.0, "", BLUE, "")];
            HeardClips(scenes, [Copied, Stretched([1.0])]) == [Stretched([1.0]), Stretched([1.0])]
  {
  }

  /** Scene `i` was synthesised with the backend `name` and stretched to its target. */
  predicate SceneDone(scenes: seq<Scene>, i: nat, name: string, seed: int, env: Env,
                      take: nat -> real, stretchRun: nat -> int, request: SynthRequest, clip: Audio)
    requires i < |scenes|
  {
    && Ok(request) == GenerateScene(name, scenes[i].text, seed, env)
    && ClipFits(clip, take(i), TargetSpeechDuration(scenes[i]), stretchRun(i))
  }

  /** The first loop of `generate_narration`: synthesise and stretch every
      scene in order, stopping at the first scene the backend fails on. */
  method SynthesizeScenes(scenes: seq<Scene>, name: string, seed: int, env: Env,
                          take: nat -> real, stretchRun: nat -> int)
    returns (outcome: Result<(seq<SynthRequest>, seq<Audio>)>)
    ensures outcome.Ok? ==> && |outcome.value.0| == |outcome.value.1| == |scenes|
                            && forall i :: 0 <= i < |scenes| ==>
                                 SceneDone(scenes, i, name, seed, env, take, stretchRun, outcome.value.0[i], outcome.value.1[i])
    ensures outcome.Ok? <==> forall i :: 0 <= i < |scenes| ==> GenerateScene(name, scenes[i].text, seed, env).Ok?
    ensures outcome.Err? ==>
              exists i :: && 0 <= i < |scenes|
                          && GenerateScene(name, scenes[i].text, seed, env) == outcome.PropagateFailure()
                          && forall j :: 0 <= j < i ==> GenerateScene(name, scenes[j].text, seed, env).Ok?
  {
    var requests: seq<SynthRequest> := [];
    var clips: seq<Audio> := [];
    var i := 0;
    while i < |scenes|
      invariant 0 <= i <= |scenes|
      invariant |requests| == |clips| == i
      invariant forall k :: 0 <= k < i ==> SceneDone(scenes, k, name, seed, env, take, stretchRun, requests[k], clips[k])
      invariant forall k :: 0 <= k < i ==> GenerateScene(name, scenes[k].text, seed, env).Ok?
    {
      var request := GenerateScene(name, scenes[i].text, seed, env);
      if request.Err? {
        assert GenerateScene(name, scenes[i].text, seed, env) == request.PropagateFailure();
        return request.PropagateFailure();
      }
      var clip := TimeStretch(take(i), TargetSpeechDuration(scenes[i]), stretchRun(i));
      requests := requests + [request.value];
      clips := clips + [clip];
      i := i + 1;
    }
    outcome := Ok((requests, clips));
  }

  /** `generate_narration`.  `take(i)` is the length of the clip the engine
      produced for scene `i`, `stretchRun(i)` the exit status of its stretch
      run, and `mixRun` the exit status of the mix. */
  method GenerateNarration(scenes: seq<Scene>, duration: int, seed: int, forced: Option<string>, env: Env,
                           take: nat -> real, stretchRun: nat -> int, mixRun: int)
    returns (outcome: Result<Narration>)
    ensures ChooseBackend(forced, env).Err? ==> outcome == ChooseBackend(forced, env).PropagateFailure()
    ensures outcome.Ok? ==> var n := outcome.value;
              && ChooseBackend(forced, env) == Ok(n.backend)
              && |n.requests| == |n.clips| == |scenes|
              && (forall i :: 0 <= i < |scenes| ==>
                    SceneDone(scenes, i, n.backend, seed, env, take, stretchRun, n.requests[i], n.clips[i]))
              && n.heard == HeardClips(scenes, n.clips)
              && n.graph == BuildMix(scenes, duration)
    ensures outcome.Ok? ==> mixRun == 0
    ensures ChooseBackend(forced, env).Ok? ==>
              var name := ChooseBackend(forced, env).value;
              (outcome == Err(MixFailed) <==>
                 mixRun != 0 && forall i :: 0 <= i < |scenes| ==> GenerateScene(name, scenes[i].text, seed, env).Ok?)
    ensures ChooseBackend(forced, env).Ok? && outcome.Err? && outcome != Err(MixFailed) ==>
              var name := ChooseBackend(forced, env).value;
              exists i :: && 0 <= i < |scenes|
                          && GenerateScene(name, scenes[i].text, seed, env) == outcome.PropagateFailure()
                          && forall j :: 0 <= j < i ==> GenerateScene(name, scenes[j].text, seed, env).Ok?
  {
    var chosen := ChooseBackend(forced, env);
    if chosen.Err? {
      return chosen.PropagateFailure();
    }
    var name := chosen.value;
    var done := SynthesizeScenes(scenes, name, seed, env, take, stretchRun);
    if done.Err? {
      return done.PropagateFailure();
    }
    if mixRun != 0 {
      return Err(MixFailed);
    }
    var (requests, clips) := done.value;
    outcome := Ok(Narration(name, requests, clips, HeardClips(scenes, clips), BuildMix(scenes, duration)));
  }

  /** With an unknown backend name forced, an empty scene list still reaches
      the mix: the name is only checked when a scene is synthesised. */
  method EmptyScriptSkipsDispatch(env: Env) returns (outcome: Result<Narration>)
    ensures outcome == Err(MixFailed)
  {
    outcome := GenerateNarration([], 57, 42, Some("espeak"), env, _ => 0.0, _ => 0, 1);
  }
}

=== FILE: tempo.dfy ===
/** `_time_stretch` of `core/tts.py`: fitting a synthesised clip to its target
    length with a chain of `atempo` stages, each limited to [0.5, 2.0].  Times
    are exact reals; the `{r:.4f}` rendering of the last stage is not modelled. */
module Tempo {

  /** The product of the stage factors, which is the overall speed-up. */
  function Product(s: seq<real>): real
  {
    if |s| == 0 then 1.0 else s[0] * Product(s[1..])
  }

  /** Halving a number above 2 lowers its integer part. */
  lemma HalvingShrinks(x: real)
    requires x > 2.0
    ensures (x / 2.0).Floor < x.Floor
  {
  }

  /** The measure both loops count down: the integer part of the ratio while
      it is above 2, then the integer part of its inverse while it is below 0.5. */
  function Excess(r: real): (int, int)
    requires r > 0.0
  {
    (if r > 2.0 then r.Floor else 0, if r < 0.5 then (1.0 / r).Floor else 0)
  }

  /** The stage chain, stated recursively: halve while above 2, double while
      below 0.5, and finish with what remains. */
  function Chain(r: real): (c: seq<real>)
    requires r > 0.0
    ensures |c| >= 1
    ensures c == [r] <==> 0.5 <= r <= 2.0
    decreases Excess(r).0, Excess(r).1
  {
    if r > 2.0 then
      HalvingShrinks(r);
      [2.0] + Chain(r / 2.0)
    else if r < 0.5 then
      assert 1.0 / (r * 2.0) == (1.0 / r) / 2.0;
      HalvingShrinks(1.0 / r);
      [0.5] + Chain(r * 2.0)
    else [r]
  }

  /** The chain's stages multiply back to the ratio, every stage is within
      `atempo`'s range, and all stages but the last are the same extreme. */
  lemma {:induction false} ChainSound(r: real)
    requires r > 0.0
    ensures var c := Chain(r);
            && |c| >= 1
            && Product(c) == r
            && (forall i :: 0 <= i < |c| ==> 0.5 <= c[i] <= 2.0)
            && (r > 2.0 ==> (forall i :: 0 <= i < |c| - 1 ==> c[i] == 2.0) && 1.0 < c[|c| - 1])
            && (r < 0.5 ==> (forall i :: 0 <= i < |c| - 1 ==> c[i] == 0.5) && c[|c| - 1] < 1.0)
            && (0.5 <= r <= 2.0 ==> c == [r])
    decreases Excess(r).0, Excess(r).1
  {
    if r > 2.0 {
      HalvingShrinks(r);
      ChainSound(r / 2.0);
    } else if r < 0.5 {
      assert 1.0 / (r * 2.0) == (1.0 / r) / 2.0;
      HalvingShrinks(1.0 / r);
      ChainSound(r * 2.0);
    }
  }

  /** One pass of the first loop: a ratio above 2 contributes an `atempo=2.0` stage. */
  lemma ChainHalves(r: real)
    requires r > 2.0
    ensures Chain(r) == [2.0] + Chain(r / 2.0)
    ensures (r / 2.0).Floor < r.Floor
  {
    HalvingShrinks(r);
  }

  /** One pass of the second loop: a ratio below 0.5 contributes an `atempo=0.5` stage. */
  lemma ChainDoubles(r: real)
    requires 0.0 < r < 0.5
    ensures Chain(r) == [0.5] + Chain(r * 2.0)
    ensures (1.0 / (r * 2.0)).Floor < (1.0 / r).Floor
  {
    assert 1.0 / (r * 2.0) == (1.0 / r) / 2.0;
    HalvingShrinks(1.0 / r);
  }

  /** The first `while` loop of `_time_stretch`: one 2.0 stage per halving
      until the ratio is at most 2. */
  method HalvingStages(ratio: real) returns (stages: seq<real>, r: real)
    requires ratio > 0.0
    ensures 0.0 < r <= 2.0
    ensures stages + Chain(r) == Chain(ratio)
  {
    stages := [];
    r := ratio;
    while r > 2.0
      invariant r > 0.0
      invariant stages + Chain(r) == Chain(ratio)
      decreases r.Floor
    {
      ChainHalves(r);
      assert stages + Chain(r) == (stages + [2.0]) + Chain(r / 2.0);
      stages := stages + [2.0];
      r := r / 2.0;
    }
  }

  /** The second `while` loop: one 0.5 stage per doubling until the ratio is
      at least 0.5. */
  method DoublingStages(ratio: real) returns (stages: seq<real>, r: real)
    requires 0.0 < ratio <= 2.0
    ensures 0.5 <= r <= 2.0
    ensures stages + Chain(r) == Chain(ratio)
  {
    stages := [];
    r := ratio;
    while r < 0.5
      invariant 0.0 < r <= 2.0
      invariant stages + Chain(r) == Chain(ratio)
      decreases (1.0 / r).Floor
    {
      ChainDoubles(r);
      assert stages + Chain(r) == (stages + [0.5]) + Chain(r * 2.0);
      stages := stages + [0.5];
      r := r * 2.0;
    }
  }

  /** The two `while` loops of `_time_stretch` followed by the final stage. */
  method AtempoChain(ratio: real) returns (stages: seq<real>)
    requires ratio > 0.0
    ensures stages == Chain(ratio)
    ensures |stages| >= 1 && Product(stages) == ratio
    ensures forall i :: 0 <= i < |stages| ==> 0.5 <= stages[i] <= 2.0
  {
    var halves, r1 := HalvingStages(ratio);
    var doubles, r2 := DoublingStages(r1);
    assert Chain(r2) == [r2];
    assert halves + doubles + [r2] == halves + (doubles + Chain(r2));
    stages := halves + doubles + [r2];
    ChainSound(ratio);
  }

  /** A scene's 7 s slot less padding is 6.4 s; a 12.9 s take needs one
      doubling and then a factor of 12.9 / 12.8. */
  lemma ChainExample()
    ensures Chain(12.9 / 6.4) == [2.0, 12.9 / 12.8]
  {
    assert 12.9 / 6.4 / 2.0 == 12.9 / 12.8;
  }

  /** What ends up at the output path: the input copied unchanged, or the
      input played through the stage chain. */
  datatype Audio = Copied | Stretched(stages: seq<real>)

  /** `_time_stretch`: a clip of `actual` seconds towards `target` seconds.  A
      non-positive length on either side copies the clip; so does a failed
      encoder run, whose exit status is `runStatus`. */
  method TimeStretch(actual: real, target: real, runStatus: int) returns (out: Audio)
    ensures out.Stretched? <==> actual > 0.0 && target > 0.0 && runStatus == 0
    ensures out.Stretched? ==> out.stages == Chain(actual / target)
    ensures out.Stretched? ==> Product(out.stages) * target == actual
  {
    if actual <= 0.0 || target <= 0.0 {
      return Copied;
    }
    var ratio := actual / target;
    assert ratio * target == actual;
    var stages := AtempoChain(ratio);
    if runStatus != 0 {
      return Copied;
    }
    out := Stretched(stages);
  }
}

=== FILE: text.dfy ===
/** The two string operations the narration code applies to scripts:
    `str.strip()` and `str.replace(tag, "")`, with Python's semantics. */
module Text {

  /** The characters Python's `str.isspace()` accepts, which `str.strip()` removes. */
  predicate IsSpace(c: char)
  {
    || c == ' '
    || ('\t' <= c <= '\r')
    || ('\U{1c}' <= c <= '\U{1f}')
    || c == '\U{85}' || c == '\U{a0}' || c == '\U{1680}'
    || ('\U{2000}' <= c <= '\U{200a}')
    || c == '\U{2028}' || c == '\U{2029}' || c == '\U{202f}'
    || c == '\U{205f}' || c == '\U{3000}'
  }

  /** The number of whitespace characters `s` starts with. */
  function LeadingSpaces(s: string): (n: nat)
    ensures n <= |s|
    ensures forall k :: 0 <= k < n ==> IsSpace(s[k])
    ensures n < |s| ==> !IsSpace(s[n])
  {
    if |s| > 0 && IsSpace(s[0]) then 1 + LeadingSpaces(s[1..]) else 0
  }

  /** The number of whitespace characters `s` ends with. */
  function TrailingSpaces(s: string): (n: nat)
    ensures n <= |s|
    ensures forall k :: |s| - n <= k < |s| ==> IsSpace(s[k])
    ensures n < |s| ==> !IsSpace(s[|s| - n - 1])
  {
    if |s| > 0 && IsSpace(s[|s| - 1]) then 1 + TrailingSpaces(s[..|s| - 1]) else 0
  }

  /** `r` is the stretch of `s` starting at `i`, and everything of `s`
      around that stretch is whitespace. */
  predicate StrippedAt(s: string, r: string, i: int)
  {
    && 0 <= i && i + |r| <= |s|
    && r == s[i..i + |r|]
    && (forall k :: 0 <= k < i ==> IsSpace(s[k]))
    && (forall k :: i + |r| <= k < |s| ==> IsSpace(s[k]))
  }

  /** `s.strip()`: the stretch of `s` between its leading and trailing whitespace. */
  function Strip(s: string): (r: string)
    ensures |r| <= |s|
    ensures |r| == 0 <==> LeadingSpaces(s) == |s|
  {
    var a := LeadingSpaces(s);
    if a == |s| then [] else s[a..|s| - TrailingSpaces(s)]
  }

  /** What `strip()` leaves starts where the leading whitespace ends, has
      only whitespace after it, and neither starts nor ends with whitespace. */
  lemma StripSound(s: string)
    ensures StrippedAt(s, Strip(s), LeadingSpaces(s))
    ensures var r := Strip(s); |r| > 0 ==> !IsSpace(r[0]) && !IsSpace(r[|r| - 1])
  {
    var a := LeadingSpaces(s);
    if a < |s| {
      var b := |s| - TrailingSpaces(s);
      assert !IsSpace(s[a]);
      assert a < b;
      var r := s[a..b];
      assert Strip(s) == r;
      assert r[0] == s[a] && r[|r| - 1] == s[b - 1];
    }
  }

  /** `tag` occurs in `s` starting at index `i`. */
  predicate OccursAt(s: string, tag: string, i: int)
  {
    0 <= i && i + |tag| <= |s| && s[i..i + |tag|] == tag
  }

  predicate TagFree(s: string, tag: string)
  {
    forall i :: 0 <= i < |s| ==> !OccursAt(s, tag, i)
  }

  /** `s.replace(tag, "")`: one left-to-right pass removing non-overlapping occurrences. */
  function RemoveAll(s: string, tag: string): (r: string)
    requires |tag| > 0
    ensures |r| <= |s|
    decreases |s|
  {
    if |s| < |tag| then s
    else if s[..|tag|] == tag then RemoveAll(s[|tag|..], tag)
    else [s[0]] + RemoveAll(s[1..], tag)
  }

  /** A prefix in which no occurrence of `tag` starts passes through `RemoveAll` unchanged. */
  lemma {:induction false} RemoveAllSkips(s: string, tag: string, k: nat)
    requires |tag| > 0 && k <= |s|
    requires forall i :: 0 <= i < k ==> !OccursAt(s, tag, i)
    ensures RemoveAll(s, tag) == s[..k] + RemoveAll(s[k..], tag)
    decreases k
  {
    if k == 0 {
      assert s[..0] + s[0..] == s;
    } else if |s| < |tag| {
      assert s[..k] + s[k..] == s;
    } else {
      assert !OccursAt(s, tag, 0);
      var t := s[1..];
      assert RemoveAll(s, tag) == [s[0]] + RemoveAll(t, tag);
      forall i | 0 <= i < k - 1
        ensures !OccursAt(t, tag, i)
      {
        OccursShift(s, tag, i);
      }
      RemoveAllSkips(t, tag, k - 1);
      ConsSplit(s, k, RemoveAll(s[k..], tag));
    }
  }

  /** Putting the first character back in front of a prefix of the tail. */
  lemma ConsSplit(s: string, k: nat, rest: string)
    requires 1 <= k <= |s|
    ensures s[1..][k - 1..] == s[k..]
    ensures [s[0]] + (s[1..][..k - 1] + rest) == s[..k] + rest
  {
    assert [s[0]] + s[1..][..k - 1] == s[..k];
  }

  /** An occurrence in the tail is an occurrence one position later in the whole. */
  lemma OccursShift(s: string, tag: string, i: nat)
    requires |s| > 0
    ensures OccursAt(s[1..], tag, i) <==> OccursAt(s, tag, i + 1)
  {
    if i + |tag| <= |s| - 1 {
      assert s[1..][i..i + |tag|] == s[i + 1..i + 1 + |tag|];
    }
  }

  /** A leading occurrence is removed and the pass carries on after it. */
  lemma RemoveAllLeading(tag: string, rest: string)
    requires |tag| > 0
    ensures RemoveAll(tag + rest, tag) == RemoveAll(rest, tag)
  {
    var s := tag + rest;
    assert s[..|tag|] == tag && s[|tag|..] == rest;
  }

  /** A front part in which no occurrence starts passes through unchanged. */
  lemma RemoveAllKeepsFront(front: string, rest: string, tag: string)
    requires |tag| > 0
    requires forall i :: 0 <= i < |front| ==> !OccursAt(front + rest, tag, i)
    ensures RemoveAll(front + rest, tag) == front + RemoveAll(rest, tag)
  {
    var s := front + rest;
    RemoveAllSkips(s, tag, |front|);
    assert s[..|front|] == front && s[|front|..] == rest;
  }

  /** Removing a tag from text that never contains it changes nothing. */
  lemma RemoveAllTagFree(s: string, tag: string)
    requires |tag| > 0 && TagFree(s, tag)
    ensures RemoveAll(s, tag) == s
  {
    RemoveAllSkips(s, tag, |s|);
    assert s[..|s|] == s;
  }

  /** In `" " + text + " " + rest`, with `text` tag-free and the tag free of
      spaces, no occurrence starts before `rest`. */
  lemma PaddedTagFree(text: string, rest: string, tag: string)
    requires |tag| > 0 && TagFree(text, tag)
    requires forall j :: 0 <= j < |tag| ==> tag[j] != ' '
    ensures forall i :: 0 <= i < |text| + 2 ==> !OccursAt(" " + text + " " + rest, tag, i)
  {
    var w := " " + text + " " + rest;
    forall i | 0 <= i < |text| + 2
      ensures !OccursAt(w, tag, i)
    {
      if i + |tag| <= |w| {
        if i == 0 {
          assert w[i..i + |tag|][0] == ' ' != tag[0];
        } else if i + |tag| <= |text| + 1 {
          assert w[i..i + |tag|] == text[i - 1..i - 1 + |tag|];
          assert !OccursAt(text, tag, i - 1);
        } else {
          var j := |text| + 1 - i;
          assert w[i..i + |tag|][j] == w[|text| + 1] == ' ' != tag[j];
        }
      }
    }
  }

  /** Stripping ignores one space of padding on each side. */
  lemma StripPadded(text: string)
    ensures Strip(" " + text + " ") == Strip(text)
  {
    var p := " " + text + " ";
    var a := LeadingSpaces(text);
    LeadingPadded(text);
    if a < |text| {
      TrailingPadded(text);
      var b := TrailingSpaces(text);
      StripCut(p, a + 1, b + 1);
      StripCut(text, a, b);
      PaddedSlice(text, a, |text| - b);
    } else {
      StripAllSpace(p);
      StripAllSpace(text);
    }
  }

  /** Where the two counts leave something, `Strip` cuts there. */
  lemma StripCut(s: string, a: nat, b: nat)
    requires LeadingSpaces(s) == a < |s| && TrailingSpaces(s) == b
    ensures a <= |s| - b && Strip(s) == s[a..|s| - b]
  {
  }

  /** An all-whitespace string strips to nothing. */
  lemma StripAllSpace(s: string)
    requires LeadingSpaces(s) == |s|
    ensures Strip(s) == []
  {
  }

  lemma PaddedSlice(text: string, i: nat, j: nat)
    requires i <= j <= |text|
    ensures (" " + text + " ")[i + 1..j + 1] == text[i..j]
  {
  }

  lemma {:induction false} LeadingPadded(text: string)
    ensures LeadingSpaces(text) < |text| ==> LeadingSpaces(" " + text + " ") == LeadingSpaces(text) + 1
    ensures LeadingSpaces(text) == |text| ==> LeadingSpaces(" " + text + " ") == |text| + 2
  {
    var p := " " + text + " ";
    var a := LeadingSpaces(text);
    forall k | 1 <= k < a + 1
      ensures IsSpace(p[k])
    {
      assert p[k] == text[k - 1];
    }
    if a < |text| {
      assert p[a + 1] == text[a];
      LeadingCount(p, a + 1);
    } else {
      LeadingCount(p, a + 2);
    }
  }

  lemma {:induction false} TrailingPadded(text: string)
    requires LeadingSpaces(text) < |text|
    ensures TrailingSpaces(" " + text + " ") == TrailingSpaces(text) + 1
  {
    var p := " " + text + " ";
    var b := TrailingSpaces(text);
    forall k | |p| - b - 1 <= k < |p|
      ensures IsSpace(p[k])
    {
      if k < |p| - 1 {
        assert p[k] == text[k - 1];
      }
    }
    if b < |text| {
      assert p[|p| - (b + 1) - 1] == text[|text| - b - 1];
    }
    TrailingCount(p, b + 1);
  }

  /** The leading-space count is the first non-space position. */
  lemma {:induction false} LeadingCount(s: string, n: nat)
    requires n <= |s|
    requires forall k :: 0 <= k < n ==> IsSpace(s[k])
    requires n < |s| ==> !IsSpace(s[n])
    ensures LeadingSpaces(s) == n
    decreases n
  {
    if n > 0 {
      LeadingCount(s[1..], n - 1);
    }
  }

  /** The trailing-space count is measured from the last non-space position. */
  lemma {:induction false} TrailingCount(s: string, n: nat)
    requires n <= |s|
    requires forall k :: |s| - n <= k < |s| ==> IsSpace(s[k])
    requires n < |s| ==> !IsSpace(s[|s| - n - 1])
    ensures TrailingSpaces(s) == n
    decreases n
  {
    if n > 0 {
      var t := s[..|s| - 1];
      assert forall k :: |t| - (n - 1) <= k < |t| ==> t[k] == s[k];
      TrailingCount(t, n - 1);
    }
  }
}

=== FILE: timeline.dfy ===
/** The timeline both the compositor and the narration read: scenes and
    captions with half-open time windows, the first-match lookups of
    `core/scene_base.py`, and the progress clamp. */
module Timeline {
  import opened Basics
  import opened Drawing

  /** A half-open time window `[start, end)`, in seconds. */
  datatype Span = Span(start: real, end: real)

  predicate Covers(sp: Span, t: real)
  {
    sp.start <= t < sp.end
  }

  /** A scene dict: `id`, `start`, `end`, `label` (here `title`), `color`, narration `text`. */
  datatype Scene = Scene(id: int, start: real, end: real, title: string, color: Color, text: string)
  {
    function Window(): Span { Span(start, end) }
  }

  /** A caption tuple `(start, end, text)`. */
  datatype Caption = Caption(start: real, end: real, text: string)
  {
    function Window(): Span { Span(start, end) }
  }

  /** The arguments `make_render_frame` closes over (less the renderer dict). */
  datatype Timeline = Timeline(scenes: seq<Scene>, captions: seq<Caption>, duration: int)

  function SceneSpans(scenes: seq<Scene>): (r: seq<Span>)
    ensures |r| == |scenes|
    ensures forall i :: 0 <= i < |scenes| ==> r[i] == scenes[i].Window()
  {
    seq(|scenes|, i requires 0 <= i < |scenes| => scenes[i].Window())
  }

  function CaptionSpans(captions: seq<Caption>): (r: seq<Span>)
    ensures |r| == |captions|
    ensures forall i :: 0 <= i < |captions| ==> r[i] == captions[i].Window()
  {
    seq(|captions|, i requires 0 <= i < |captions| => captions[i].Window())
  }

  /** The index `next(...)` stops at: the first window that covers `t`. */
  function FirstCovering(spans: seq<Span>, t: real): (r: Option<nat>)
    ensures r.Some? ==> r.value < |spans| && Covers(spans[r.value], t)
    ensures r.Some? ==> forall j :: 0 <= j < r.value ==> !Covers(spans[j], t)
    ensures r.None? <==> forall j :: 0 <= j < |spans| ==> !Covers(spans[j], t)
  {
    if |spans| == 0 then None
    else if Covers(spans[0], t) then Some(0)
    else match FirstCovering(spans[1..], t)
      case None => None
      case Some(k) => Some(k + 1)
  }

  /** `next((s for s in scenes if s["start"] <= t < s["end"]), scenes[-1])`:
      the first scene whose window holds `t`, else the last scene.  The
      default is evaluated before the search, so an empty list raises. */
  function SceneAt(scenes: seq<Scene>, t: real): (r: Result<Scene>)
    ensures |scenes| == 0 <==> r.Err?
    ensures r.Err? ==> r == Err(IndexError)
    ensures forall i :: (0 <= i < |scenes| && Covers(scenes[i].Window(), t)
                         && (forall j :: 0 <= j < i ==> !Covers(scenes[j].Window(), t)))
                        ==> r == Ok(scenes[i])
    ensures (|scenes| > 0 && forall i :: 0 <= i < |scenes| ==> !Covers(scenes[i].Window(), t))
            ==> r == Ok(scenes[|scenes| - 1])
  {
    if |scenes| == 0 then Err(IndexError)
    else
      var spans := SceneSpans(scenes);
      match FirstCovering(spans, t)
      case Some(i) => Ok(scenes[i])
      case None => Ok(scenes[|scenes| - 1])
  }

  /** The scene lookup always returns one of the scenes. */
  lemma SceneAtMember(scenes: seq<Scene>, t: real)
    requires |scenes| > 0
    ensures exists i :: 0 <= i < |scenes| && SceneAt(scenes, t) == Ok(scenes[i])
  {
    match FirstCovering(SceneSpans(scenes), t)
    case Some(i) =>
      assert SceneAt(scenes, t) == Ok(scenes[i]);
    case None =>
      assert SceneAt(scenes, t) == Ok(scenes[|scenes| - 1]);
  }

  /** `next((c for c in captions if c[0] <= t < c[1]), None)`. */
  function CaptionAt(captions: seq<Caption>, t: real): (r: Option<Caption>)
    ensures r.None? <==> forall i :: 0 <= i < |captions| ==> !Covers(captions[i].Window(), t)
    ensures forall i :: (0 <= i < |captions| && Covers(captions[i].Window(), t)
                         && (forall j :: 0 <= j < i ==> !Covers(captions[j].Window(), t)))
                        ==> r == Some(captions[i])
  {
    var spans := CaptionSpans(captions);
    match FirstCovering(spans, t)
    case Some(i) => Some(captions[i])
    case None => None
  }

  /** `max(0, min(1, (t - start) / (end - start)))`; a zero-length window divides by zero. */
  function Progress(s: Scene, t: real): (r: Result<real>)
    ensures r.Err? <==> s.end == s.start
    ensures r.Err? ==> r.fault == ZeroDivision
    ensures r.Ok? ==> 0.0 <= r.value <= 1.0
    ensures r.Ok? && t == s.start ==> r.value == 0.0
    ensures Covers(s.Window(), t) ==> r == Ok((t - s.start) / (s.end - s.start))
    ensures s.start < s.end <= t ==> r == Ok(1.0)
    ensures t <= s.start < s.end ==> r == Ok(0.0)
  {
    if s.end - s.start == 0.0 then Err(ZeroDivision)
    else
      var q := (t - s.start) / (s.end - s.start);
      RatioBounds(t - s.start, s.end - s.start);
      Ok(ClampUnit(q))
  }

  /** Where `a / d` falls relative to 0 and 1, for a positive divisor. */
  lemma RatioBounds(a: real, d: real)
    requires d != 0.0
    ensures a == 0.0 ==> a / d == 0.0
    ensures d > 0.0 && 0.0 <= a ==> 0.0 <= a / d
    ensures d > 0.0 && a < d ==> a / d < 1.0
    ensures d > 0.0 && a >= d ==> a / d >= 1.0
    ensures d > 0.0 && a <= 0.0 ==> a / d <= 0.0
  {
    var q := a / d;
    assert q * d == a;
    if d > 0.0 {
      MulSign(q, d);
      assert (q - 1.0) * d == a - d;
      MulSign(q - 1.0, d);
    } else {
      MulSign(q, -d);
      assert q * -d == -a;
    }
  }

  /** The 5-12 s "PROMISE LOCK" scene of Video #5 is half done at 8.5 s. */
  lemma ProgressMidScene()
    ensures Progress(Scene(2, 5.0, 12.0, "PROMISE LOCK", BLUE, ""), 8.5) == Ok(0.5)
    ensures Progress(Scene(2, 5.0, 12.0, "PROMISE LOCK", BLUE, ""), 5.0) == Ok(0.0)
  {
  }

  // ---------------------------------------------------------------------
  // Tiling

  /** Each window is non-empty and ends where the next begins. */
  predicate Chained(spans: seq<Span>)
  {
    && (forall i :: 0 <= i < |spans| ==> spans[i].start < spans[i].end)
    && (forall i :: 0 <= i < |spans| - 1 ==> spans[i].end == spans[i + 1].start)
  }

  /** The windows tile `[0, duration)`. */
  predicate Tiles(spans: seq<Span>, duration: real)
  {
    && |spans| > 0
    && spans[0].start == 0.0
    && Chained(spans)
    && spans[|spans| - 1].end == duration
  }

  /** Two chained runs that meet end to start chain into one. */
  lemma ChainedJoin(a: seq<Span>, b: seq<Span>)
    requires Chained(a) && Chained(b) && |a| > 0 && |b| > 0
    requires a[|a| - 1].end == b[0].start
    ensures Chained(a + b)
  {
    var ab := a + b;
    forall i | 0 <= i < |ab| - 1
      ensures ab[i].end == ab[i + 1].start
    {
      if i == |a| - 1 {
        assert ab[i] == a[|a| - 1] && ab[i + 1] == b[0];
      }
    }
  }

  /** Chained windows are ordered: an earlier one ends no later than a later one starts. */
  lemma {:induction false} ChainedOrdered(spans: seq<Span>, i: nat, j: nat)
    requires Chained(spans) && i < j < |spans|
    ensures spans[i].end <= spans[j].start
    decreases j - i
  {
    if i + 1 < j {
      ChainedOrdered(spans, i + 1, j);
    }
  }

  /** Below the end of window `k`, and at or after the first start, some window up to `k` covers `t`. */
  lemma {:induction false} ChainedCovers(spans: seq<Span>, k: nat, t: real)
    requires Chained(spans) && k < |spans|
    requires spans[0].start <= t < spans[k].end
    ensures exists i :: 0 <= i <= k && Covers(spans[i], t)
    decreases k
  {
    if k == 0 {
      assert Covers(spans[0], t);
    } else if t < spans[k - 1].end {
      ChainedCovers(spans, k - 1, t);
    } else {
      assert Covers(spans[k], t);
    }
  }

  /** In a tiling, every `t` in `[0, duration)` is covered by exactly one window,
      and no window covers a `t` outside it. */
  lemma TilesExactlyOne(spans: seq<Span>, duration: real, t: real)
    requires Tiles(spans, duration)
    ensures 0.0 <= t < duration ==> FirstCovering(spans, t).Some?
    ensures forall i, j :: 0 <= i < |spans| && 0 <= j < |spans| && Covers(spans[i], t) && Covers(spans[j], t) ==> i == j
    ensures (t < 0.0 || t >= duration) ==> FirstCovering(spans, t).None?
  {
    if 0.0 <= t < duration {
      ChainedCovers(spans, |spans| - 1, t);
    }
    forall i, j | 0 <= i < |spans| && 0 <= j < |spans| && Covers(spans[i], t) && Covers(spans[j], t)
      ensures i == j
    {
      if i < j {
        ChainedOrdered(spans, i, j);
      } else if j < i {
        ChainedOrdered(spans, j, i);
      }
    }
    forall i | 0 <= i < |spans|
      ensures spans[0].start <= spans[i].start && spans[i].end <= duration
    {
      if 0 < i {
        ChainedOrdered(spans, 0, i);
      }
      if i < |spans| - 1 {
        ChainedOrdered(spans, i, |spans| - 1);
      }
    }
  }

  /** On a tiling timeline the scene lookup returns the one scene whose window
      holds `t` inside `[0, duration)`, and the last scene at or past the end. */
  lemma TiledSceneAt(scenes: seq<Scene>, duration: real, t: real)
    requires Tiles(SceneSpans(scenes), duration)
    ensures 0.0 <= t < duration ==> SceneAt(scenes, t).Ok? && Covers(SceneAt(scenes, t).value.Window(), t)
    ensures t >= duration ==> SceneAt(scenes, t) == Ok(scenes[|scenes| - 1])
  {
    TilesExactlyOne(SceneSpans(scenes), duration, t);
  }
}

=== FILE: video5.dfy ===
/** The Video #5 script (`examples/video5_context_erosion.py`): a 57-second
    reel of six scenes and 44 captions, drawn with its own copies of the
    helpers (unclamped blend, unfloored radius, regular-weight label font) and
    a strict painter lookup. */
module Video5 {
  import opened Basics
  import opened Drawing
  import opened Timeline
  import opened Compositor
  import opened Encoder

  const Fps: int := 30
  const Duration: int := 57

  const Scenes: seq<Scene> := [
    Scene(1, 0.0, 5.0, "COLD OPEN", RED, ""),
    Scene(2, 5.0, 12.0, "PROMISE LOCK", BLUE, ""),
    Scene(3, 12.0, 25.0, "THE PROBLEM", YELLOW, ""),
    Scene(4, 25.0, 38.0, "THE CLIFF", RED, ""),
    Scene(5, 38.0, 48.0, "THE FIX", GREEN, ""),
    Scene(6, 48.0, 57.0, "CLIFFHANGER", RED, "")
  ]

  /** The captions, in four runs of eleven. */
  const Captions: seq<Caption> := CaptionsA + CaptionsB + CaptionsC + CaptionsD

  const CaptionsA: seq<Caption> := [
    Caption(0.0, 1.0, "Your AI agent"), Caption(1.0, 2.0, "is getting dumber"),
    Caption(2.0, 3.2, "with every message \U{2014}"), Caption(3.2, 4.1, "and there's no"),
    Caption(4.1, 5.0, "error log telling you."), Caption(5.0, 6.2, "This is context"),
    Caption(6.2, 7.4, "window erosion \U{2014}"), Caption(7.4, 8.8, "the #1 way agents"),
    Caption(8.8, 10.0, "silently degrade."), Caption(10.0, 11.0, "I see it in"),
    Caption(11.0, 12.0, "every system I audit.")
  ]

  const CaptionsB: seq<Caption> := [
    Caption(12.0, 13.2, "Every conversation turn"), Caption(13.2, 14.5, "adds tokens to memory."),
    Caption(14.5, 15.8, "Instructions, tool results,"), Caption(15.8, 17.0, "user messages \U{2014}"),
    Caption(17.0, 18.2, "they all pile up."), Caption(18.2, 19.8, "Your original instructions"),
    Caption(19.8, 21.0, "get buried."), Caption(21.0, 22.5, "The agent can"),
    Caption(22.5, 23.5, "still see them."), Caption(23.5, 25.0, "But stops paying attention."),
    Caption(25.0, 26.5, "The degradation")
  ]

  const CaptionsC: seq<Caption> := [
    Caption(26.5, 27.8, "isn't gradual."), Caption(27.8, 29.0, "It's a cliff."),
    Caption(29.0, 30.5, "Performance holds steady"), Caption(30.5, 32.0, "at 60-70% utilization \U{2014}"),
    Caption(32.0, 33.5, "then drops off a cliff."), Caption(33.5, 35.0, "The agent starts"),
    Caption(35.0, 36.2, "hallucinating, looping,"), Caption(36.2, 38.0, "or phantom instructions."),
    Caption(38.0, 39.2, "The fix:"), Caption(39.2, 40.8, "measure context health"),
    Caption(40.8, 42.0, "on every turn.")
  ]

  const CaptionsD: seq<Caption> := [
    Caption(42.0, 43.5, "Compute the ratio of"), Caption(43.5, 44.8, "signal to context."),
    Caption(44.8, 46.0, "Below threshold?"), Caption(46.0, 47.2, "Trigger a reset."),
    Caption(47.2, 48.0, "20 min to implement."), Caption(48.0, 49.5, "Context erosion is"),
    Caption(49.5, 51.0, "the failure mode"), Caption(51.0, 52.5, "you can see coming."),
    Caption(52.5, 54.0, "The next one \U{2014}"), Caption(54.0, 55.5, "you can't."),
    Caption(55.5, 57.0, "The reasoning has collapsed.")
  ]

  const Reel := Timeline(Scenes, Captions, Duration)

  /** `renderers = {1: draw_scene1, ..., 6: draw_scene6}`. */
  const Painters: map<int, Painter> := map[
    1 := Painter("draw_scene1"), 2 := Painter("draw_scene2"), 3 := Painter("draw_scene3"),
    4 := Painter("draw_scene4"), 5 := Painter("draw_scene5"), 6 := Painter("draw_scene6")]

  /** `font(24)` is the regular face; captions use `font(48, bold=True)`. */
  const Video5Style := Style(Look(Font(Mono, 24, false), Font(Mono, 48, true), Unfloored, Unclamped), Strict)

  /** The six scenes tile the 57 seconds, and every scene has a painter. */
  lemma ScenesTile()
    ensures Tiles(SceneSpans(Scenes), Duration as real)
    ensures forall i :: 0 <= i < |Scenes| ==> Scenes[i].id in Painters
  {
  }

  /** The 44 captions tile the 57 seconds too. */
  lemma CaptionsTile()
    ensures Tiles(CaptionSpans(Captions), Duration as real)
  {
    CaptionsAChained();
    CaptionsBChained();
    CaptionsCChained();
    CaptionsDChained();
    var a, b, c, d := CaptionSpans(CaptionsA), CaptionSpans(CaptionsB), CaptionSpans(CaptionsC), CaptionSpans(CaptionsD);
    ChainedJoin(a, b);
    ChainedJoin(a + b, c);
    ChainedJoin(a + b + c, d);
    assert CaptionSpans(Captions) == a + b + c + d;
  }

  // The caption table is proved chained in four runs of eleven, joined by
  // `ChainedJoin`: indexing one 44-element literal in a single proof is more
  // than the solver can do within its budget.  Each run states every
  // neighbouring pair so that the solver need not unfold the literal.

  lemma CaptionsAChained()
    ensures Chained(CaptionSpans(CaptionsA))
  {
    var spans := CaptionSpans(CaptionsA);
    assert spans[0].end == spans[1].start;
    assert spans[1].end == spans[2].start;
    assert spans[2].end == spans[3].start;
    assert spans[3].end == spans[4].start;
    assert spans[4].end == spans[5].start;
    assert spans[5].end == spans[6].start;
    assert spans[6].end == spans[7].start;
    assert spans[7].end == spans[8].start;
    assert spans[8].end == spans[9].start;
    assert spans[9].end == spans[10].start;
  }

  lemma CaptionsBChained()
    ensures Chained(CaptionSpans(CaptionsB))
  {
    var spans := CaptionSpans(CaptionsB);
    assert spans[0].end == spans[1].start;
    assert spans[1].end == spans[2].start;
    assert spans[2].end == spans[3].start;
    assert spans[3].end == spans[4].start;
    assert spans[4].end == spans[5].start;
    assert spans[5].end == spans[6].start;
    assert spans[6].end == spans[7].start;
    assert spans[7].end == spans[8].start;
    assert spans[8].end == spans[9].start;
    assert spans[9].end == spans[10].start;
  }

  lemma CaptionsCChained()
    ensures Chained(CaptionSpans(CaptionsC))
  {
    var spans := CaptionSpans(CaptionsC);
    assert spans[0].end == spans[1].start;
    assert spans[1].end == spans[2].start;
    assert spans[2].end == spans[3].start;
    assert spans[3].end == spans[4].start;
    assert spans[4].end == spans[5].start;
    assert spans[5].end == spans[6].start;
    assert spans[6].end == spans[7].start;
    assert spans[7].end == spans[8].start;
    assert spans[8].end == spans[9].start;
    assert spans[9].end == spans[10].start;
  }

  lemma CaptionsDChained()
    ensures Chained(CaptionSpans(CaptionsD))
  {
    var spans := CaptionSpans(CaptionsD);
    assert spans[0].end == spans[1].start;
    assert spans[1].end == spans[2].start;
    assert spans[2].end == spans[3].start;
    assert spans[3].end == spans[4].start;
    assert spans[4].end == spans[5].start;
    assert spans[5].end == spans[6].start;
    assert spans[6].end == spans[7].start;
    assert spans[7].end == spans[8].start;
    assert spans[8].end == spans[9].start;
    assert spans[9].end == spans[10].start;
  }

  /** At any moment of the reel exactly one caption shows; none shows once it is over. */
  lemma OneCaptionAtATime(t: real)
    ensures 0.0 <= t < 57.0 ==> CaptionAt(Captions, t).Some?
    ensures t >= 57.0 ==> CaptionAt(Captions, t).None?
    ensures forall i, j :: (&& 0 <= i < |Captions| && 0 <= j < |Captions|
                            && Covers(Captions[i].Window(), t) && Covers(Captions[j].Window(), t)) ==> i == j
  {
    CaptionsTile();
    var spans := CaptionSpans(Captions);
    TilesExactlyOne(spans, 57.0, t);
    assert forall i :: 0 <= i < |Captions| ==> spans[i] == Captions[i].Window();
  }

  /** The scene lookup finds exactly one scene during the reel and falls back
      to the sixth, "CLIFFHANGER", from 57 s on. */
  lemma SceneLookup(t: real)
    ensures 0.0 <= t < 57.0 ==> SceneAt(Scenes, t).Ok? && Covers(SceneAt(Scenes, t).value.Window(), t)
    ensures t >= 57.0 ==> SceneAt(Scenes, t) == Ok(Scene(6, 48.0, 57.0, "CLIFFHANGER", RED, ""))
  {
    ScenesTile();
    TiledSceneAt(Scenes, 57.0, t);
  }

  /** The caption "is getting dumber" holds the window `[1.0, 2.0)`: it shows
      at 1.0 s and has given way to the next caption at 2.0 s. */
  lemma SecondCaptionWindow()
    ensures CaptionAt(Captions, 1.0) == Some(Caption(1.0, 2.0, "is getting dumber"))
    ensures CaptionAt(Captions, 2.0) == Some(Caption(2.0, 3.2, "with every message \U{2014}"))
  {
    assert Captions[..3] == CaptionsA[..3];
    assert Captions[1] == CaptionsA[1] && Captions[2] == CaptionsA[2];
    assert !Covers(Captions[0].Window(), 1.0);
    assert !Covers(Captions[0].Window(), 2.0) && !Covers(Captions[1].Window(), 2.0);
  }

  /** The strict painter lookup never raises: every frame of the reel, and any
      time past it, renders. */
  lemma EveryFrameRenders(t: real, metrics: Metrics)
    ensures RenderFrame(Video5Style, Reel, Painters, t, metrics).Ok?
  {
    ScenesTile();
    TiledFramesRender(Video5Style, Reel, Painters, t, metrics);
  }

  /** The bar's segments are 87, 122, 228, 228, 175 and 157 pixels wide,
      3 pixels short of the full 1000. */
  lemma BarSegments()
    ensures SegmentWidths(Scenes, Duration) == [87, 122, 228, 228, 175, 157]
    ensures Sum(SegmentWidths(Scenes, Duration)) == 997
  {
    var ws := SegmentWidths(Scenes, Duration);
    ShareOf(Scenes[0], 87);
    ShareOf(Scenes[1], 122);
    ShareOf(Scenes[2], 228);
    ShareOf(Scenes[3], 228);
    ShareOf(Scenes[4], 175);
    ShareOf(Scenes[5], 157);
    assert ws == [87, 122, 228, 228, 175, 157];
    WidthsTotal(ws);
  }

  /** A scene gets `w` pixels of the 57-second bar when `w` is its share rounded down. */
  lemma ShareOf(s: Scene, w: int)
    requires 0 <= w
    requires 57.0 * w as real <= (s.end - s.start) * 1000.0 < 57.0 * (w + 1) as real
    ensures SegmentWidth(s, Duration) == w
  {
    var x := (s.end - s.start) / 57.0 * 1000.0;
    assert x * 57.0 == (s.end - s.start) * 1000.0;
    assert w as real <= x < (w + 1) as real;
  }

  lemma WidthsTotal(ws: seq<int>)
    requires ws == [87, 122, 228, 228, 175, 157]
    ensures Sum(ws) == 997
  {
    assert Sum(ws[5..]) == 157 by { assert ws[5..][1..] == []; }
    assert Sum(ws[4..]) == 332 by { assert ws[4..][1..] == ws[5..]; }
    assert Sum(ws[3..]) == 560 by { assert ws[3..][1..] == ws[4..]; }
    assert Sum(ws[2..]) == 788 by { assert ws[2..][1..] == ws[3..]; }
    assert Sum(ws[1..]) == 910 by { assert ws[1..][1..] == ws[2..]; }
  }

  /** The bar segments' backgrounds and the caption panel are drawn the same under both
      blend rules: the script's alphas 0.08 and 0.75 lie in [0, 1]. */
  lemma OverlayColorsAgree()
    ensures Blend(Unclamped, WHITE, 0.08) == Blend(Clamped, WHITE, 0.08)
    ensures Blend(Unclamped, BLACK, 0.75) == Blend(Clamped, BLACK, 0.75)
  {
    RgbaVariantsAgree(WHITE, 0.08);
    RgbaVariantsAgree(BLACK, 0.75);
  }

  /** `main`: 1710 frames at 30 fps, a progress line every second, and
      success exactly when the encoder exits with 0. */
  method RenderReel(encoderStatus: int, metrics: Metrics)
    returns (frames: seq<seq<DrawCmd>>, notices: seq<nat>, success: bool)
    ensures |frames| == 1710
    ensures forall k :: 0 <= k < |frames| ==>
              RenderFrame(Video5Style, Reel, Painters, FrameTime(k, Fps), metrics) == Ok(frames[k])
    ensures |notices| == 57 && forall i :: 0 <= i < |notices| ==> notices[i] == 30 * i
    ensures success <==> encoderStatus == 0
  {
    var render := FrameRenderer(Video5Style, Reel, Painters, metrics);
    var outcome;
    frames, notices, outcome := EncodeFrames(render, Duration, Fps, true, encoderStatus);
    if outcome.Err? {
      var k :| 0 <= k < TotalFrames(Duration, Fps) && render(FrameTime(k, Fps)) == outcome.PropagateFailure();
      EveryFrameRenders(FrameTime(k, Fps), metrics);
      assert false;
    }
    success := outcome.value;
    NoticesEverySecond(notices);
  }

  /** A strictly increasing list holding exactly the multiples of 30 below
      1710 is `0, 30, ..., 1680`. */
  lemma NoticesEverySecond(notices: seq<nat>)
    requires forall a, b :: 0 <= a < b < |notices| ==> notices[a] < notices[b]
    requires forall k: nat :: k in notices <==> k < 1710 && k % 30 == 0
    ensures |notices| == 57 && forall i :: 0 <= i < |notices| ==> notices[i] == 30 * i
  {
    var expected := seq(57, i requires 0 <= i < 57 => 30 * i);
    forall k: nat
      ensures k in notices <==> k in expected
    {
      if k < 1710 && k % 30 == 0 {
        assert expected[k / 30] == k;
      }
    }
    SortedSameElements(notices, expected);
  }

  /** Two strictly increasing lists with the same elements are equal. */
  lemma {:induction false} SortedSameElements(a: seq<nat>, b: seq<nat>)
    requires forall i, j :: 0 <= i < j < |a| ==> a[i] < a[j]
    requires forall i, j :: 0 <= i < j < |b| ==> b[i] < b[j]
    requires forall k :: k in a <==> k in b
    ensures a == b
    decreases |a| + |b|
  {
    assert |a| > 0 ==> a[0] in a && a[0] in b;
    assert |b| > 0 ==> b[0] in b && b[0] in a;
    if |a| > 0 && |b| > 0 {
      var i :| 0 <= i < |b| && b[i] == a[0];
      var j :| 0 <= j < |a| && a[j] == b[0];
      assert forall x :: 0 <= x < |b| ==> b[0] <= b[x];
      assert forall x :: 0 <= x < |a| ==> a[0] <= a[x];
      forall k
        ensures k in a[1..] <==> k in b[1..]
      {
        if k in a[1..] {
          var m :| 1 <= m < |a| && a[m] == k;
          assert a[0] < k && k in a;
          var n :| 0 <= n < |b| && b[n] == k;
          assert n != 0;
          assert b[1..][n - 1] == k;
        }
        if k in b[1..] {
          var m :| 1 <= m < |b| && b[m] == k;
          assert b[0] < k && k in b;
          var n :| 0 <= n < |a| && a[n] == k;
          assert n != 0;
          assert a[1..][n - 1] == k;
        }
      }
      SortedSameElements(a[1..], b[1..]);
      assert a == [a[0]] + a[1..] && b == [b[0]] + b[1..];
    }
  }
}
